=== FILE: README.md ===
# Network telemetry back end, modelled in Dafny

This project models the sequential core of a network-telemetry back end. An
ingestion service receives device lifecycle events and periodic metric
snapshots from a discovery engine. It upserts a device table, appends to an
event log and to a metric time series, and serves read-only analytics over
those tables. (As written, the analytics module fails to import; see
"## Left out".) It also serves a topology view of the devices and a broadcast
hub that fans messages out to WebSocket subscribers.

The relational store is abstracted as an immutable value
`Store(devices, events, metrics)`:

- `devices` is a sequence in primary-key order. It keeps the unique constraint
  on the hardware address as the invariant `Valid`.
- `events` and `metrics` are append-only sequences.

Clock values are whole UTC seconds, and "now" is always a parameter. Calendar
days are `DateOf(t) = t / 86400`, the counterpart of SQL `date(...)`.

A handler that raises before committing, for example on a missing JSON key,
returns `Err`, and the caller keeps the old store. A handler that commits
returns `Ok` with the new store.

Modules, one per source component:

- `Common`: Option, Result, the error kinds, the clock.
- `Store`: the three tables, the identifier lookup `.first()` and the
  uniqueness invariant.
- `EventProcessor`: `app/services/event_processor.py`, which covers dispatch,
  the join, idle and metric handlers, the engine sync and the dashboard copy.
- `Analytics`: `app/services/analytics_service.py`, minus the bandwidth ranking,
  modelled as if its import of `DeviceMetric` resolved (see "## Left out").
- `TopBandwidth`: the bandwidth ranking of `app/services/analytics_service.py`.
- `Topology`: `app/api/topology_router.py`.
- `WebSocketManager`: `app/services/websocket_manager.py`.
- `ReportService`: `generate_daily_report` of `app/services/report_service.py`.
- `PipelineProperties`: lemmas that connect what a processed event does to
  what the analytics then report.

## Model

| member | source | states |
|---|---|---|
| Common.DateOf | app/services/analytics_service.py:16-18 | The UTC day of a clock value: the unique d with d·86400 ≤ t < (d+1)·86400. |
| Common.OrElse | app/api/topology_router.py:72 | Python `s or fallback` on an optional text column: the value when it is present and non-empty, the fallback otherwise. |
| Store.IndexOf | app/services/event_processor.py:43-45 | `.first()` on an identifier filter finds a row exactly when one has that identifier, and it finds the earliest such row. |
| Store.Lookup | app/services/event_processor.py:43-45 | The row found carries the requested identifier and is a row of the table. There is none exactly when no row has that identifier. |
| Store.CountId | app/models/device.py:9 | The number of rows with an identifier is at most the table size, and it is zero exactly when the identifier is unknown. |
| Store.UniqueCountIsOne | app/models/device.py:9 | Under the unique constraint, a known identifier names exactly one row. |
| Store.LookupAppend | app/services/event_processor.py:59 | Appending a row leaves every known identifier's row in place. The new identifier then finds the new row. |
| Store.LookupUpdate | app/services/event_processor.py:60-62 | Rewriting the row a lookup finds, with the same identifier, changes what that identifier finds and nothing else. |
| Store.IndexOfUpdate | app/services/event_processor.py:60-62 | Rewriting a row in place without changing its identifier leaves every identifier's first position where it was. |
| Store.UpdateKeepsUnique | app/models/device.py:9 | An in-place update of a row keeps identifiers unique. |
| Store.AppendKeepsUnique | app/models/device.py:9 | Adding a row whose identifier is unknown keeps identifiers unique. |
| EventProcessor.ReadHeader | app/services/event_processor.py:37-41 | The handler succeeds in reading the payload exactly when the device object, its `device_id` and the timestamp are all present. It then yields those two values. |
| EventProcessor.NewDevice | app/services/event_processor.py:47-58 | The created row has the payload's identifier, status ACTIVE, first_seen = last_seen = timestamp, and the five attributes from the payload (JSON null gives NULL). It fails exactly when one of the five attribute keys is missing. |
| EventProcessor.HandleDeviceJoined | app/services/event_processor.py:35-73 | Succeeds exactly when the header is readable and the device is known or all five attributes are present. A known device changes only last_seen and status. An unknown device gets one new row appended. Exactly one DEVICE_JOINED event is appended, other identifiers' rows are unchanged, metrics are unchanged, and uniqueness is preserved. |
| EventProcessor.HandleDeviceIdle | app/services/event_processor.py:76-100 | Succeeds exactly when the header is readable. A known device becomes INACTIVE with last_seen = timestamp. An unknown device leaves the table unchanged. A DEVICE_IDLE event is logged in both cases, other rows and the metrics are unchanged, and uniqueness is preserved. |
| EventProcessor.FirstMissingKey | app/services/event_processor.py:105-119 | The first key a sequence of dictionary reads would fail on. It is absent exactly when every key is present. When present, the map lacks it and every key read before it is present. |
| EventProcessor.MetricRow | app/services/event_processor.py:107-120 | Each column of the metric row equals the payload's value for the matching key. |
| EventProcessor.HandleMetric | app/services/event_processor.py:103-123 | Succeeds exactly when `metrics` is present with all ten keys. On success it appends exactly that row and leaves devices and events unchanged. Otherwise it raises on a missing key. |
| EventProcessor.ProcessEvent | app/services/event_processor.py:16-32 | DEVICE_JOINED, DEVICE_IDLE and PERIODIC_METRIC_STATE each give exactly the result of their handler. Any other subtype, or no subtype, leaves the store unchanged. Each handled event appends at most one event and one metric row, never rewrites the existing log, never removes a device, and keeps identifiers unique. |
| EventProcessor.EnsurePresent | app/services/event_processor.py:150-159 | One pass of the loop: a known identifier leaves the table alone; an unknown one finds a new ACTIVE engine device; every other identifier finds what it found before. Uniqueness is preserved. |
| EventProcessor.NoDuplicatesTail | app/services/event_processor.py:150 | The rest of a duplicate-free identifier list is duplicate-free and does not contain its head. |
| EventProcessor.SyncDevicesFromEngine | app/services/event_processor.py:149-160 | Afterwards every listed identifier is present. For every identifier, a row already on record is what the lookup still finds; an unknown listed identifier finds an ACTIVE engine device with first_seen = last_seen = now; any other identifier stays unknown. Existing rows keep their positions, events and metrics are unchanged, and uniqueness is preserved. |
| EventProcessor.DashboardStats | app/services/event_processor.py:126-147 | The processor's copy of the dashboard: total is the table size, and new-today, active and inactive are the sizes of the sets of rows first seen today, with status ACTIVE and with status INACTIVE. So active + inactive ≤ total and new-today ≤ total. |
| EventProcessor.UnknownKeyword | app/models/device_event.py:5-11 | The first keyword, in argument order, that names no mapped column of the event-log table (`id`, `device_id`, `event_type`, `timestamp`): every keyword before it is a column. There is none exactly when every keyword is a column. |
| EventProcessor.NewLogRow | app/models/device_event.py:5-11 | Building a log row succeeds exactly when every keyword is a mapped column, the key `id` included, and then holds the given identifier, type and time. Otherwise it raises on a keyword that is not a column. |
| EventProcessor.LogRowWithoutRawJson | app/services/event_processor.py:65-70 | The log row built from only its three columns always succeeds, with the given values. |
| EventProcessor.HandleDeviceJoinedAsWritten | app/services/event_processor.py:35-73 | The join handler with the `raw_json` keyword never succeeds. It fails on a missing key as the corrected handler does, and otherwise raises on `raw_json` before the commit. |
| EventProcessor.HandleDeviceIdleAsWritten | app/services/event_processor.py:76-100 | The idle handler with the `raw_json` keyword never succeeds. It fails on a missing key as the corrected handler does, and otherwise raises on `raw_json` before the commit. |
| EventProcessor.RawJsonBlocksSampleEvent | app/services/event_processor.py:65-71 | A concrete witness: for one complete event (device "aa:bb" at time 0, on an empty store), the corrected join handler stores the device and the corrected idle handler succeeds, while both handlers as written raise on `raw_json`. |
| Analytics.CountDevices | app/services/analytics_service.py:18-21 | A filtered count is at most the table size. It is zero exactly when no row matches and full exactly when every row matches. |
| Analytics.CountDevicesAppend | app/services/event_processor.py:59 | Adding a row raises a filtered count by one exactly when the row matches. |
| Analytics.CountDevicesUpdate | app/services/event_processor.py:60-62 | Rewriting a row changes a filtered count by whether the new row matches minus whether the old one did. |
| Analytics.MatchingAppend | app/services/event_processor.py:59 | Adding a row adds its position to the matching set exactly when it matches. The new position was not in the set before. |
| Analytics.CountDevicesIsMatching | app/services/analytics_service.py:18-21 | A filtered device count is the size of the set of row positions that match the filter. |
| Analytics.StatusCountsDisjoint | app/services/analytics_service.py:19-21 | Two different status counts add up to at most the table size. |
| Analytics.CountEvents | app/services/analytics_service.py:72-75 | A filtered event count is at most the log size, and it is zero exactly when no entry matches. |
| Analytics.CountEventsAppend | app/services/event_processor.py:65-71 | Logging an event raises a filtered count by one exactly when the event matches. |
| Analytics.MatchingEventsAppend | app/services/event_processor.py:65-71 | Logging an event adds its position to the matching set exactly when it matches. The new position was not in the set before. |
| Analytics.CountEventsIsMatching | app/services/analytics_service.py:72-75 | A filtered event count is the size of the set of log positions that match the filter. |
| Analytics.Select | app/services/analytics_service.py:43-45 | The rows in a metric window are exactly the stored rows that match the filter. |
| Analytics.SelectAppend | app/services/event_processor.py:122 | A new metric row joins a window exactly when it matches, at the end. |
| Analytics.SumAppend | app/services/event_processor.py:122 | A column sum grows by the new row's value. |
| Analytics.DashboardStats | app/services/analytics_service.py:14-28 | total is the table size. new-today, active and inactive are the sizes of the sets of rows first seen on the current UTC day, with status ACTIVE and with status INACTIVE. So active + inactive ≤ total and new-today ≤ total, and new-today is zero exactly when no device was first seen today. |
| Analytics.DeviceConnectionsToday | app/services/analytics_service.py:68-79 | The size of the set of log entries that are DEVICE_JOINED and dated today. So it is at most the log size, and zero exactly when no such entry exists. |
| Analytics.TrafficSummary | app/services/analytics_service.py:30-66 | All fields are zero exactly when the trailing hour has no row or its packet sum is 0. Otherwise each field is that hour's sum of its column. |
| Analytics.Percent | app/services/analytics_service.py:98-101 | A share times the total equals 100 times the part. |
| Analytics.ProtocolDistribution | app/services/analytics_service.py:81-109 | With a non-positive five-minute packet total, all four shares are zero. Otherwise each share is 100·counter/total, with no division by zero. |
| Analytics.SharesAddUp | app/services/analytics_service.py:98-101 | When the four protocol counters make up the total, their unrounded shares add up to 100. |
| Analytics.ShareBounds | app/services/analytics_service.py:98-101 | A counter between 0 and the total has a share between 0 and 100. |
| Analytics.AllDevices | app/services/analytics_service.py:111-134 | One entry per device, in table order, copying id, ip, vendor, status and times. The hostname is "Unknown" when missing or empty. The activity count is the size of the set of that device's log entries in the last hour, so it is zero exactly when there are none. |
| Analytics.AssessSnapshot | app/services/analytics_service.py:151-177 | score = 100 − 20·[10·arp > 3·total] − 15·[total > 10000] − 10·[udp > 2·tcp], within [55, 100]. The issues are exactly the fired rules' messages, in rule order. The status is HEALTHY exactly when score > 80, and never CRITICAL. |
| Analytics.LatestSince | app/services/analytics_service.py:140-142 | The newest snapshot measured at or after the window start. There is none exactly when no snapshot is in the window. |
| Analytics.NetworkHealth | app/services/analytics_service.py:136-177 | With no snapshot in the last ten minutes: score 100, no issues, HEALTHY. Otherwise the verdict is the assessment of a window snapshot that no other window snapshot is newer than. In every case the score is in [55, 100], there are at most three issues, and the status is HEALTHY exactly when score > 80 and never CRITICAL. |
| Analytics.AllRulesGiveWarning | app/services/analytics_service.py:154-171 | All three rules firing gives score 55, status WARNING and three issues. |
| Analytics.MoreRulesNeverRaiseScore | app/services/analytics_service.py:154-164 | A snapshot that trips a superset of the rules never scores higher. |
| Analytics.HealthyIff | app/services/analytics_service.py:154-171 | HEALTHY exactly when the ARP rule did not fire and the traffic and UDP rules did not both fire. |
| TopBandwidth.InWindow | app/services/analytics_service.py:198-200 | The window keeps exactly the rows measured at or after its start. |
| TopBandwidth.InWindowAppend | app/services/analytics_service.py:198-200 | A new row joins the window, at its end, exactly when it is measured at or after the window start. |
| TopBandwidth.TrafficOfAppend | app/services/analytics_service.py:197-201 | A new row adds its sent + received to its own device's total and to no other device's. |
| TopBandwidth.GroupIds | app/services/analytics_service.py:200-202 | The group keys are the devices that have rows, each exactly once. |
| TopBandwidth.SortDesc | app/services/analytics_service.py:202-204 | The result is a permutation of the input (equal multisets) in non-increasing order of total, and stays duplicate-free. |
| TopBandwidth.TopBandwidthDevices | app/services/analytics_service.py:192-212 | At most `limit` entries, one per device, in non-increasing order of total. Each total is that device's sent + received over the last hour. A device of the window that is left out means the limit was reached, and every ranked device has at least its traffic. |
| TopBandwidth.CutIsTopK | app/services/analytics_service.py:202-204 | Cutting the sorted group totals at the limit gives at most `limit` entries, in non-increasing order, one per device, each that device's total over the window. |
| TopBandwidth.CutKeepsLargest | app/services/analytics_service.py:202-204 | A window device the cut leaves out means the limit was reached, and every kept entry has at least its traffic. |
| TopBandwidth.OmittedNoLarger | app/services/analytics_service.py:202-204 | A window device missing above the cut lies below it, so it is no larger than any entry above the cut. |
| TopBandwidth.RankedEntries | app/services/analytics_service.py:195-201 | Every ranked entry is some device's windowed total, and no device is ranked twice. |
| Topology.MapDeviceType | app/api/topology_router.py:13-21 | LAPTOP, MOBILE, PRINTER and IOT map to their lower-case names. Every other value, a missing type included, maps to "network". |
| Topology.CalculateStatus | app/api/topology_router.py:24-40 | offline without a sighting. Otherwise active exactly when elapsed < 60, idle exactly when 60 ≤ elapsed < 300, and offline exactly when elapsed ≥ 300. |
| Topology.CalculateActivity | app/api/topology_router.py:43-58 | low without a sighting. Otherwise high exactly when elapsed < 30, medium exactly when 30 ≤ elapsed < 120, and low exactly when elapsed ≥ 120. |
| Topology.StatusActivityConsistent | app/api/topology_router.py:35-58 | high activity implies an active link, and an offline link implies low activity. |
| Topology.LabelsMonotone | app/api/topology_router.py:33-58 | An older sighting is never given a fresher status or activity. |
| Topology.LabelsMonotoneInTime | app/api/topology_router.py:32-58 | As the clock advances, a sighting's labels only go stale. |
| Topology.BuildTopologyResponse | app/api/topology_router.py:61-92 | One node per device, in table order, with id = mac = device_id. The name is the hostname, or the device_id when that is missing or empty. The node type, status and activity level are the classifiers applied to that device's type and last sighting. The other columns are copied. The switch is the fixed core switch. |
| WebSocketManager.Connect | app/services/websocket_manager.py:8-11 | The connection is appended at the end, and the existing entries keep their order. |
| WebSocketManager.FirstIndex | app/services/websocket_manager.py:14 | The position `list.remove` would act on: an occurrence with no earlier one. |
| WebSocketManager.Disconnect | app/services/websocket_manager.py:13-14 | Raises exactly when the connection is absent. Otherwise the list shrinks by one. |
| WebSocketManager.DisconnectRemovesFirst | app/services/websocket_manager.py:13-14 | Disconnecting removes exactly the first occurrence, keeping everything else in order, so the multiset loses one copy. |
| WebSocketManager.ConnectThenDisconnect | app/services/websocket_manager.py:8-14 | Disconnecting a connection that was just connected, and was not listed before, restores the list. |
| WebSocketManager.Survivors | app/services/websocket_manager.py:19-30 | The connections whose send succeeded, never more than were listed. |
| WebSocketManager.SurvivorsAndFailuresPartition | app/services/websocket_manager.py:19-30 | The survivors and the failures together account for every listed connection. |
| WebSocketManager.SurvivorsMembers | app/services/websocket_manager.py:21-30 | A connection survives exactly when it was listed and its send succeeded. |
| WebSocketManager.DisconnectEach | app/services/websocket_manager.py:29-30 | Successive removals shrink the list by the number removed. |
| WebSocketManager.Broadcast | app/services/websocket_manager.py:16-30 | A send is attempted to every connection listed at call time, in order. The failures are collected without stopping. No removal raises. The final list is the original with the failed sends removed, in the original order, so it shrinks by exactly the number of failures. A successful send is never removed. |
| WebSocketManager.SendAll | app/services/websocket_manager.py:19-26 | The send loop attempts every listed connection once, in order, and collects exactly the failed ones, in order. |
| WebSocketManager.DisconnectAll | app/services/websocket_manager.py:28-30 | The removal loop gives the same result as removing the connections one after another, raising exactly where that would. |
| WebSocketManager.RemovingFailuresLeavesSurvivors | app/services/websocket_manager.py:16-30 | Removing the failed connections in order never raises and leaves exactly the survivors: the listed connections whose send succeeded, as many as were listed minus the failures. |
| WebSocketManager.FailuresAppend | app/services/websocket_manager.py:21-26 | One more attempted send adds it to the failures exactly when it fails. |
| WebSocketManager.DisconnectFailures | app/services/websocket_manager.py:29-30 | Removing the failed connections in order, from a list whose prefix only holds working ones, leaves that prefix followed by the survivors. |
| WebSocketManager.FailedStep | app/services/websocket_manager.py:29-30 | A failed head connection is removed by the first removal, after which the rest of the removals act as on the shorter list. |
| WebSocketManager.KeptStep | app/services/websocket_manager.py:21-30 | A working head connection joins the kept prefix and stays among the survivors. |
| WebSocketManager.DisconnectEachStep | app/services/websocket_manager.py:29-30 | Removing several connections is removing the first and then the rest. |
| WebSocketManager.DisconnectAfterPrefix | app/services/websocket_manager.py:14 | The first occurrence of a connection missing from a prefix is found after that prefix. |
| WebSocketManager.DisconnectAt | app/services/websocket_manager.py:14 | Removing a listed connection cuts it out at its first occurrence. |
| ReportService.GenerateDailyReport | app/services/report_service.py:12-42 | The date is the given day, or today when none is given. total is the table size. new, active and inactive are the sizes of the sets of rows first seen that day, with status ACTIVE and with status INACTIVE, so new ≤ total and active + inactive ≤ total. Byte and packet fields are that day's sums, and all zero when no snapshot is dated that day. |
| ReportService.TodayReportMatchesDashboard | app/services/report_service.py:13-22 | A report for today carries the dashboard's four device counts. |
| PipelineProperties.TwoJoinsSameDevice | app/services/event_processor.py:43-71 | Two joins for one identifier leave exactly one row for it, ACTIVE, last seen at the second timestamp, and two more log entries. |
| PipelineProperties.JoinNewDeviceCounts | app/services/event_processor.py:47-59 | A join of an unknown device adds one to the total and to the active count, and adds one to new-today exactly when it joined today. |
| PipelineProperties.IdleActiveDeviceCounts | app/services/event_processor.py:88-90 | An idle event for an active device moves one device from the active to the inactive count. The total is unchanged. |
| PipelineProperties.JoinEventCounts | app/services/event_processor.py:64-71 | A logged join raises that device's last-hour activity exactly when it is in the hour, leaves other devices' counts alone, and raises today's connections exactly when it is dated today. |
| PipelineProperties.IdleIsNoConnection | app/services/event_processor.py:92-99 | An idle event never changes today's connection count. |
| PipelineProperties.MetricWindowSums | app/services/event_processor.py:103-123 | A stored snapshot adds its counters to exactly the windowed sums whose window it falls in. |
| PipelineProperties.NewestSnapshotDecidesHealth | app/services/analytics_service.py:140-142 | A snapshot newer than every stored one, inside the ten-minute window, is the one the health verdict is taken from. |
| PipelineProperties.UnhandledSubtypeChangesNothing | app/services/event_processor.py:16-32 | A PERIODIC_TOPOLOGY_STATE message changes nothing, so the dashboard is unchanged too. |

## Findings

| source | as written | input that shows it | evidently intended | confidence | as-written member | corrected member |
|---|---|---|---|---|---|---|
| app/services/event_processor.py:65-71 | Both lifecycle handlers build `DeviceEvent(..., raw_json=...)`, but the `device_events` table (app/models/device_event.py:5-11) has no `raw_json` column, so the constructor raises before the commit (also at lines 92-97). | Any complete DEVICE_JOINED or DEVICE_IDLE event, for example device "aa:bb" at time 0 on an empty store. | The event is logged and the device change is committed. | medium, not executed | EventProcessor.HandleDeviceJoinedAsWritten, EventProcessor.HandleDeviceIdleAsWritten, EventProcessor.RawJsonBlocksSampleEvent | EventProcessor.LogRowWithoutRawJson, EventProcessor.HandleDeviceJoined, EventProcessor.HandleDeviceIdle |

## Left out

- ISO-8601 parsing of timestamps (`fromisoformat` after stripping `Z`) is a
  library call. Timestamps enter the model as integer seconds, and a
  timestamp that does not parse is treated like a missing one.
- Time zones. The topology router makes naive times UTC, and the model has
  only UTC.
- Floating point. The megabyte conversion and two-decimal rounding of the
  traffic summary and the bandwidth ranking are left out: byte sums are
  reported unconverted. The protocol shares are exact `real` quotients,
  without rounding.
- Analytics.AssessSnapshot: the ARP rule `arp > total * 0.3` is stated in
  exact integers as `10·arp > 3·total`. The float product can differ from
  this only at rounding boundaries of very large counters.
- The join and idle handlers as written build their log row with a
  `raw_json` keyword that the `device_events` table does not declare. The
  mapped constructor rejects it, so both handlers raise before they commit.
  The handlers the rest of the model uses build the row from its three
  columns. See "## Findings".
- Pending session objects. After a handler raises, a device it created or
  changed stays in the session and is written by the next commit on it. The
  model keeps the old store on every `Err`.
- The unused `type` field of an inbound message.
- A missing key in `payload["metrics"]` raises, so the model returns `Err`
  and stores nothing. No counter defaults to zero.
- `disconnect` of an absent connection raises, as `list.remove` does, and the
  model returns `Err(NotConnected)`.
- A full-refresh handler for `PERIODIC_TOPOLOGY_STATE`. The dispatcher has no
  branch for that subtype, so the model treats it as a no-op, like every
  other unhandled subtype.
- PipelineProperties.TwoJoinsSameDevice: last_seen becomes the second join's
  timestamp even when it is earlier than the first. The code takes no maximum,
  and the model follows the code.
- EventProcessor.SyncDevicesFromEngine: it requires the identifier list to
  have no duplicates. A repeated identifier within one call depends on the
  session's autoflush setting, which is not part of this model. Both
  `utcnow()` calls of one new row are modelled by one `now`.
- A message whose `device_id` is JSON null. The model's identifier is
  always a string.
- NULL metric columns. A counter that is JSON null in the payload would be
  stored as NULL, and the model's metric payload holds only integers, so it
  cannot express that row. The sums treat every stored counter as an integer.
- The failing import of the analytics service. `app/services/analytics_service.py`
  imports `DeviceMetric` from `app/models/network_metrics.py`, which defines
  only `NetworkMetric`. So importing the module raises ImportError, and as
  written none of its aggregates can be served: the dashboard, the traffic
  summary, today's connections, the protocol shares, the device list, the
  health verdict and the ranking. `Analytics` and `TopBandwidth` model the
  service as if that import resolved. The event processor's dashboard copy
  and the report service do not import it.
- The per-device traffic rows of the bandwidth ranking. With no
  `DeviceMetric` class to read them from, the model ranks rows of an assumed
  shape (device_id, data_sent, data_received, measure_time).
- TopBandwidth.TopBandwidthDevices: the default `limit=5` of the ranking. The
  limit is always an explicit argument, and every promise holds for 5 as for
  any other limit.
- Ties among equal totals in the bandwidth ranking, and among equal
  measurement times in the health lookup, have an order the database does
  not fix. The model proves only what holds for any order.
- A negative ranking limit. The model's limit is a natural number.
- `get_complete_analytics` only bundles the other aggregates with a clock
  reading, so it is not modelled separately.
- `save_report_excel` is spreadsheet and file-system output. The report's
  `"Date"` is a day number rather than its ISO string.
- The WebSocket and HTTP endpoints (`device_ws.py`, `frontend_ws.py`,
  `analytics.py`, `main.py`), the five-second topology push loop, the
  accept handshake and the log prints are I/O plumbing. The two endpoint
  files import a `ConnectionManager` that the manager module does not
  define, since its class is `WebSocketManager`.
- Concurrency: async send interleavings, races on the connection list or
  on a device upsert, transactions, rollback and autoflush. Every
  operation is one sequential step over an immutable store.
- Each `utcnow()` inside one operation reads the same `now`.

=== FILE: analytics.dfy ===
/**
 The analytics service: read-only aggregates over the device table, the event
 log and the metric series, all "as of" an explicit clock value `now`.
 */
module Analytics {
  import opened Common
  import opened Store

  // ---------------------------------------------------------------------------
  // Counting devices and events, summing metric counters
  // ---------------------------------------------------------------------------

  /** The `filter(...)` conditions the service puts on the device table. */
  datatype DeviceFilter = WithStatus(status: string) | FirstSeenOn(day: int)

  predicate DeviceMatches(d: Device, f: DeviceFilter)
  {
    match f
    case WithStatus(st) => d.status == st
    case FirstSeenOn(day) => d.firstSeen.Some? && DateOf(d.firstSeen.value) == day
  }

  /** `query(Device).filter(f).count()`. */
  function CountDevices(ds: seq<Device>, f: DeviceFilter): (n: nat)
    ensures n <= |ds|
    ensures n == 0 <==> forall i :: 0 <= i < |ds| ==> !DeviceMatches(ds[i], f)
    ensures n == |ds| <==> forall i :: 0 <= i < |ds| ==> DeviceMatches(ds[i], f)
  {
    if |ds| == 0 then 0
    else
      var rest := CountDevices(ds[1..], f);
      assert forall i :: 1 <= i < |ds| ==> ds[i] == ds[1..][i - 1];
      (if DeviceMatches(ds[0], f) then 1 else 0) + rest
  }

  lemma {:induction false} CountDevicesAppend(ds: seq<Device>, d: Device, f: DeviceFilter)
    ensures CountDevices(ds + [d], f) == CountDevices(ds, f) + (if DeviceMatches(d, f) then 1 else 0)
  {
    if |ds| > 0 {
      assert (ds + [d])[1..] == ds[1..] + [d];
      CountDevicesAppend(ds[1..], d, f);
    } else {
      assert ds + [d] == [d];
    }
  }

  lemma {:induction false} CountDevicesUpdate(ds: seq<Device>, k: nat, d: Device, f: DeviceFilter)
    requires k < |ds|
    ensures CountDevices(ds[k := d], f)
      == CountDevices(ds, f) - (if DeviceMatches(ds[k], f) then 1 else 0) + (if DeviceMatches(d, f) then 1 else 0)
  {
    if k == 0 {
      assert ds[k := d][1..] == ds[1..];
    } else {
      assert ds[k := d][1..] == ds[1..][k - 1 := d];
      CountDevicesUpdate(ds[1..], k - 1, d, f);
    }
  }

  /** The positions of the rows a device filter keeps: the reference meaning of a count. */
  ghost function Matching(ds: seq<Device>, f: DeviceFilter): set<nat>
  {
    set i: nat | i < |ds| && DeviceMatches(ds[i], f)
  }

  lemma MatchingAppend(ds: seq<Device>, d: Device, f: DeviceFilter)
    ensures Matching(ds + [d], f) == Matching(ds, f) + (if DeviceMatches(d, f) then {|ds|} else {})
    ensures |ds| !in Matching(ds, f)
  {
    assert forall i :: 0 <= i < |ds| ==> (ds + [d])[i] == ds[i];
  }

  /** A device count is the number of rows the filter keeps. */
  lemma {:induction false} CountDevicesIsMatching(ds: seq<Device>, f: DeviceFilter)
    ensures CountDevices(ds, f) == |Matching(ds, f)|
    decreases |ds|
  {
    if |ds| > 0 {
      var init, last := ds[..|ds| - 1], ds[|ds| - 1];
      assert ds == init + [last];
      CountDevicesIsMatching(init, f);
      CountDevicesAppend(init, last, f);
      MatchingAppend(init, last, f);
    }
  }

  /** No device has two statuses, so two distinct status counts never exceed the table. */
  lemma {:induction false} StatusCountsDisjoint(ds: seq<Device>, a: string, b: string)
    requires a != b
    ensures CountDevices(ds, WithStatus(a)) + CountDevices(ds, WithStatus(b)) <= |ds|
  {
    if |ds| > 0 {
      StatusCountsDisjoint(ds[1..], a, b);
    }
  }

  /** The filters the service puts on the event log. */
  datatype EventFilter = JoinedOn(day: int) | ForDeviceSince(id: string, since: int)

  predicate EventMatches(e: DeviceEvent, f: EventFilter)
  {
    match f
    case JoinedOn(day) => e.eventType == DEVICE_JOINED && DateOf(e.timestamp) == day
    case ForDeviceSince(id, since) => e.deviceId == id && e.timestamp >= since
  }

  /** `query(DeviceEvent).filter(f).count()`. */
  function CountEvents(es: seq<DeviceEvent>, f: EventFilter): (n: nat)
    ensures n <= |es|
    ensures n == 0 <==> forall i :: 0 <= i < |es| ==> !EventMatches(es[i], f)
  {
    if |es| == 0 then 0
    else
      var rest := CountEvents(es[1..], f);
      assert forall i :: 1 <= i < |es| ==> es[i] == es[1..][i - 1];
      (if EventMatches(es[0], f) then 1 else 0) + rest
  }

  lemma {:induction false} CountEventsAppend(es: seq<DeviceEvent>, e: DeviceEvent, f: EventFilter)
    ensures CountEvents(es + [e], f) == CountEvents(es, f) + (if EventMatches(e, f) then 1 else 0)
  {
    if |es| > 0 {
      assert (es + [e])[1..] == es[1..] + [e];
      CountEventsAppend(es[1..], e, f);
    } else {
      assert es + [e] == [e];
    }
  }

  /** The positions of the log entries an event filter keeps. */
  ghost function MatchingEvents(es: seq<DeviceEvent>, f: EventFilter): set<nat>
  {
    set i: nat | i < |es| && EventMatches(es[i], f)
  }

  lemma MatchingEventsAppend(es: seq<DeviceEvent>, e: DeviceEvent, f: EventFilter)
    ensures MatchingEvents(es + [e], f) == MatchingEvents(es, f) + (if EventMatches(e, f) then {|es|} else {})
    ensures |es| !in MatchingEvents(es, f)
  {
    assert forall i :: 0 <= i < |es| ==> (es + [e])[i] == es[i];
  }

  /** An event count is the number of log entries the filter keeps. */
  lemma {:induction false} CountEventsIsMatching(es: seq<DeviceEvent>, f: EventFilter)
    ensures CountEvents(es, f) == |MatchingEvents(es, f)|
    decreases |es|
  {
    if |es| > 0 {
      var init, last := es[..|es| - 1], es[|es| - 1];
      assert es == init + [last];
      CountEventsIsMatching(init, f);
      CountEventsAppend(init, last, f);
      MatchingEventsAppend(init, last, f);
    }
  }

  /** The metric columns the service sums. */
  datatype Counter = TotalPackets | TcpPackets | UdpPackets | IcmpPackets | ArpRequests | DataSent | DataReceived

  function Get(m: NetworkMetric, c: Counter): int
  {
    match c
    case TotalPackets => m.totalPackets
    case TcpPackets => m.tcpPackets
    case UdpPackets => m.udpPackets
    case IcmpPackets => m.icmpPackets
    case ArpRequests => m.arpRequests
    case DataSent => m.dataSent
    case DataReceived => m.dataReceived
  }

  /** The filters the service puts on the metric series. */
  datatype MetricFilter = Since(since: int) | OnDay(day: int)

  predicate MetricMatches(m: NetworkMetric, f: MetricFilter)
  {
    match f
    case Since(t) => m.measureTime >= t
    case OnDay(day) => DateOf(m.measureTime) == day
  }

  /** The rows a `filter(f)` keeps, in table order. */
  function Select(ms: seq<NetworkMetric>, f: MetricFilter): (w: seq<NetworkMetric>)
    ensures |w| <= |ms|
    ensures forall m :: m in w <==> m in ms && MetricMatches(m, f)
  {
    if |ms| == 0 then []
    else
      var rest := Select(ms[1..], f);
      assert forall m :: m in ms <==> m == ms[0] || m in ms[1..] by {
        assert ms == [ms[0]] + ms[1..];
      }
      if MetricMatches(ms[0], f) then [ms[0]] + rest else rest
  }

  lemma {:induction false} SelectAppend(ms: seq<NetworkMetric>, m: NetworkMetric, f: MetricFilter)
    ensures Select(ms + [m], f) == Select(ms, f) + (if MetricMatches(m, f) then [m] else [])
  {
    if |ms| > 0 {
      assert (ms + [m])[1..] == ms[1..] + [m];
      SelectAppend(ms[1..], m, f);
    } else {
      assert ms + [m] == [m];
    }
  }

  /** SQL `sum(c)` over some rows, with the empty sum read as 0. */
  function Sum(ms: seq<NetworkMetric>, c: Counter): int
  {
    if |ms| == 0 then 0 else Get(ms[0], c) + Sum(ms[1..], c)
  }

  lemma {:induction false} SumAppend(ms: seq<NetworkMetric>, m: NetworkMetric, c: Counter)
    ensures Sum(ms + [m], c) == Sum(ms, c) + Get(m, c)
  {
    if |ms| > 0 {
      assert (ms + [m])[1..] == ms[1..] + [m];
      SumAppend(ms[1..], m, c);
    } else {
      assert ms + [m] == [m];
    }
  }

  // ---------------------------------------------------------------------------
  // Dashboard counters and device connections
  // ---------------------------------------------------------------------------

  datatype DashboardCounts = DashboardCounts(
    newDevicesToday: nat, inactiveDevices: nat, activeDevices: nat, totalDevices: nat)

  /** `get_dashboard_stats`: devices first seen on the current UTC day, and the
      devices by stored status. */
  function DashboardStats(s: Store, now: int): (r: DashboardCounts)
    ensures r.totalDevices == |s.devices|
    ensures r.newDevicesToday == |Matching(s.devices, FirstSeenOn(DateOf(now)))|
    ensures r.activeDevices == |Matching(s.devices, WithStatus(ACTIVE))|
    ensures r.inactiveDevices == |Matching(s.devices, WithStatus(INACTIVE))|
    ensures r.activeDevices + r.inactiveDevices <= r.totalDevices
    ensures r.newDevicesToday <= r.totalDevices
    ensures r.newDevicesToday == 0 <==>
      forall i :: 0 <= i < |s.devices| ==>
        s.devices[i].firstSeen.None? || DateOf(s.devices[i].firstSeen.value) != DateOf(now)
  {
    StatusCountsDisjoint(s.devices, ACTIVE, INACTIVE);
    CountDevicesIsMatching(s.devices, FirstSeenOn(DateOf(now)));
    CountDevicesIsMatching(s.devices, WithStatus(ACTIVE));
    CountDevicesIsMatching(s.devices, WithStatus(INACTIVE));
    DashboardCounts(
      CountDevices(s.devices, FirstSeenOn(DateOf(now))),
      CountDevices(s.devices, WithStatus(INACTIVE)),
      CountDevices(s.devices, WithStatus(ACTIVE)),
      |s.devices|)
  }

  /** `get_device_connections_today`: join events logged on the current UTC day. */
  function DeviceConnectionsToday(s: Store, now: int): (n: nat)
    ensures n == |MatchingEvents(s.events, JoinedOn(DateOf(now)))|
    ensures n <= |s.events|
    ensures n == 0 <==> forall i :: 0 <= i < |s.events| ==>
      s.events[i].eventType != DEVICE_JOINED || DateOf(s.events[i].timestamp) != DateOf(now)
  {
    CountEventsIsMatching(s.events, JoinedOn(DateOf(now)));
    CountEvents(s.events, JoinedOn(DateOf(now)))
  }

  // ---------------------------------------------------------------------------
  // Traffic summary and protocol distribution
  // ---------------------------------------------------------------------------

  /** Byte counters are reported as byte sums; the source divides them into
      rounded megabytes for display. */
  datatype Traffic = Traffic(
    totalPackets: int, tcpPackets: int, udpPackets: int, icmpPackets: int,
    arpRequests: int, dataSent: int, dataReceived: int)

  const ZeroTraffic: Traffic := Traffic(0, 0, 0, 0, 0, 0, 0)

  /** `get_traffic_summary`: sums over the trailing hour. When no row is in the
      window (SQL sum is NULL) or the packet total is 0, every field is 0. */
  function TrafficSummary(s: Store, now: int): (r: Traffic)
    ensures var w := Select(s.metrics, Since(now - SecondsPerHour));
      && (r == ZeroTraffic <==> |w| == 0 || Sum(w, TotalPackets) == 0)
      && (r != ZeroTraffic ==>
            && r.totalPackets == Sum(w, TotalPackets) && r.tcpPackets == Sum(w, TcpPackets)
            && r.udpPackets == Sum(w, UdpPackets) && r.icmpPackets == Sum(w, IcmpPackets)
            && r.arpRequests == Sum(w, ArpRequests) && r.dataSent == Sum(w, DataSent)
            && r.dataReceived == Sum(w, DataReceived))
  {
    var w := Select(s.metrics, Since(now - SecondsPerHour));
    if |w| > 0 && Sum(w, TotalPackets) != 0 then
      Traffic(Sum(w, TotalPackets), Sum(w, TcpPackets), Sum(w, UdpPackets), Sum(w, IcmpPackets),
              Sum(w, ArpRequests), Sum(w, DataSent), Sum(w, DataReceived))
    else
      ZeroTraffic
  }

  /** Percentages, unrounded. */
  datatype Distribution = Distribution(tcp: real, udp: real, icmp: real, arp: real)

  const ZeroDistribution: Distribution := Distribution(0.0, 0.0, 0.0, 0.0)

  function Percent(part: int, total: int): (p: real)
    requires total > 0
    ensures p * total as real == 100.0 * part as real
  {
    100.0 * part as real / total as real
  }

  /** `get_protocol_distribution`: each protocol's share of the packets in the
      trailing five minutes; all zero unless that total is positive, so there is
      never a division by zero. */
  function ProtocolDistribution(s: Store, now: int): (r: Distribution)
    ensures var w := Select(s.metrics, Since(now - 5 * SecondsPerMinute));
      var total := Sum(w, TotalPackets);
      && (total <= 0 ==> r == ZeroDistribution)
      && (total > 0 ==>
            && r.tcp * total as real == 100.0 * Sum(w, TcpPackets) as real
            && r.udp * total as real == 100.0 * Sum(w, UdpPackets) as real
            && r.icmp * total as real == 100.0 * Sum(w, IcmpPackets) as real
            && r.arp * total as real == 100.0 * Sum(w, ArpRequests) as real)
  {
    var w := Select(s.metrics, Since(now - 5 * SecondsPerMinute));
    var total := Sum(w, TotalPackets);
    if total > 0 then
      Distribution(Percent(Sum(w, TcpPackets), total), Percent(Sum(w, UdpPackets), total),
                   Percent(Sum(w, IcmpPackets), total), Percent(Sum(w, ArpRequests), total))
    else
      ZeroDistribution
  }

  /** When the four protocol counters make up the packet total, their shares
      add up to exactly 100 (before the source's rounding). */
  lemma SharesAddUp(tcp: int, udp: int, icmp: int, arp: int, total: int)
    requires total > 0 && tcp + udp + icmp + arp == total
    ensures Percent(tcp, total) + Percent(udp, total) + Percent(icmp, total) + Percent(arp, total) == 100.0
  {
    var t := total as real;
    var a, b, c, d := Percent(tcp, total), Percent(udp, total), Percent(icmp, total), Percent(arp, total);
    var scaled := a * t + b * t + c * t + d * t;
    assert (a + b + c + d) * t == scaled;
    assert scaled == 100.0 * t by {
      assert scaled == 100.0 * (tcp as real + udp as real + icmp as real + arp as real);
    }
  }

  /** A counter between 0 and the total has a share between 0 and 100. */
  lemma ShareBounds(part: int, total: int)
    requires 0 <= part <= total && total > 0
    ensures 0.0 <= Percent(part, total) <= 100.0
  {
  }

  // ---------------------------------------------------------------------------
  // Device listing
  // ---------------------------------------------------------------------------

  const UNKNOWN_HOSTNAME: string := "Unknown"

  datatype DeviceSummary = DeviceSummary(
    deviceId: string,
    ip: Option<string>,
    vendor: Option<string>,
    status: string,
    firstSeen: Option<int>,
    lastSeen: Option<int>,
    activityCountLastHour: nat,
    hostname: string)

  function Summarize(d: Device, es: seq<DeviceEvent>, now: int): DeviceSummary
  {
    DeviceSummary(d.deviceId, d.ipAddress, d.vendor, d.status, d.firstSeen, d.lastSeen,
                  CountEvents(es, ForDeviceSince(d.deviceId, now - SecondsPerHour)),
                  OrElse(d.hostname, UNKNOWN_HOSTNAME))
  }

  /** `get_all_devices`: one summary per device row, in table order. */
  function AllDevices(s: Store, now: int): (r: seq<DeviceSummary>)
    ensures |r| == |s.devices|
    ensures forall i :: 0 <= i < |r| ==>
      var d := s.devices[i];
      && r[i].deviceId == d.deviceId && r[i].ip == d.ipAddress && r[i].vendor == d.vendor
      && r[i].status == d.status && r[i].firstSeen == d.firstSeen && r[i].lastSeen == d.lastSeen
      && r[i].hostname != ""
      && (Truthy(d.hostname) ==> r[i].hostname == d.hostname.value)
      && (!Truthy(d.hostname) ==> r[i].hostname == UNKNOWN_HOSTNAME)
      && r[i].activityCountLastHour == |MatchingEvents(s.events, ForDeviceSince(d.deviceId, now - SecondsPerHour))|
      && r[i].activityCountLastHour <= |s.events|
      && (r[i].activityCountLastHour == 0 <==>
            forall j :: 0 <= j < |s.events| ==>
              s.events[j].deviceId != d.deviceId || s.events[j].timestamp < now - SecondsPerHour)
  {
    forall d: Device | d in s.devices
      ensures CountEvents(s.events, ForDeviceSince(d.deviceId, now - SecondsPerHour))
              == |MatchingEvents(s.events, ForDeviceSince(d.deviceId, now - SecondsPerHour))|
    {
      CountEventsIsMatching(s.events, ForDeviceSince(d.deviceId, now - SecondsPerHour));
    }
    seq(|s.devices|, i requires 0 <= i < |s.devices| => Summarize(s.devices[i], s.events, now))
  }

  // ---------------------------------------------------------------------------
  // Network health
  // ---------------------------------------------------------------------------

  datatype HealthStatus = Healthy | Warning | Critical

  datatype Health = Health(score: int, issues: seq<string>, status: HealthStatus)

  const ARP_ISSUE: string := "ARP traffic unusually high"
  const TRAFFIC_ISSUE: string := "High network traffic"
  const UDP_ISSUE: string := "Unusual UDP/TCP ratio"

  /** `arp_requests > total_packets * 0.3`, in exact integer arithmetic. */
  predicate ArpHigh(m: NetworkMetric) { 10 * m.arpRequests > 3 * m.totalPackets }
  predicate TrafficHigh(m: NetworkMetric) { m.totalPackets > 10000 }
  predicate UdpHigh(m: NetworkMetric) { m.udpPackets > m.tcpPackets * 2 }

  function Classify(score: int): HealthStatus
  {
    if score > 80 then Healthy else if score > 50 then Warning else Critical
  }

  /** The rule-based assessment of one snapshot, written step by step as the
      source does: start at 100, apply each rule in turn, classify, then clamp. */
  function AssessSnapshot(m: NetworkMetric): (h: Health)
    ensures 55 <= h.score <= 100
    ensures h.status != Critical
    ensures h.score == 100 - (if ArpHigh(m) then 20 else 0) - (if TrafficHigh(m) then 15 else 0)
                           - (if UdpHigh(m) then 10 else 0)
    ensures h.issues == (if ArpHigh(m) then [ARP_ISSUE] else [])
                        + (if TrafficHigh(m) then [TRAFFIC_ISSUE] else [])
                        + (if UdpHigh(m) then [UDP_ISSUE] else [])
    ensures h.status == Healthy <==> h.score > 80
  {
    var (s1, i1) := if ArpHigh(m) then (100 - 20, [ARP_ISSUE]) else (100, []);
    var (s2, i2) := if TrafficHigh(m) then (s1 - 15, i1 + [TRAFFIC_ISSUE]) else (s1, i1);
    var (s3, i3) := if UdpHigh(m) then (s2 - 10, i2 + [UDP_ISSUE]) else (s2, i2);
    Health(if s3 > 0 then s3 else 0, i3, Classify(s3))
  }

  /** The most recent snapshot measured at or after `since`, if any
      (`order_by(measure_time.desc()).first()`; among equal times any one). */
  function LatestSince(ms: seq<NetworkMetric>, since: int): (r: Option<NetworkMetric>)
    ensures r.None? <==> forall i :: 0 <= i < |ms| ==> ms[i].measureTime < since
    ensures r.Some? ==> r.value in ms && r.value.measureTime >= since
    ensures r.Some? ==> forall i :: 0 <= i < |ms| && ms[i].measureTime >= since ==>
                          ms[i].measureTime <= r.value.measureTime
  {
    if |ms| == 0 then None
    else
      var rest := LatestSince(ms[1..], since);
      assert forall i :: 1 <= i < |ms| ==> ms[i] == ms[1..][i - 1];
      if ms[0].measureTime < since then rest
      else if rest.Some? && rest.value.measureTime >= ms[0].measureTime then rest
      else Some(ms[0])
  }

  const HealthWindow: int := 10 * SecondsPerMinute

  /** `get_network_health`: assess the latest snapshot of the trailing ten
      minutes; with none, the network is reported healthy. */
  function NetworkHealth(s: Store, now: int): (h: Health)
    ensures (forall i :: 0 <= i < |s.metrics| ==> s.metrics[i].measureTime < now - HealthWindow)
            ==> h == Health(100, [], Healthy)
    ensures 55 <= h.score <= 100 && h.status != Critical
    ensures h.status == Healthy <==> h.score > 80
    ensures |h.issues| <= 3
    ensures (exists i :: 0 <= i < |s.metrics| && s.metrics[i].measureTime >= now - HealthWindow) ==>
      exists m :: m in s.metrics && m.measureTime >= now - HealthWindow
        && (forall i :: 0 <= i < |s.metrics| && s.metrics[i].measureTime >= now - HealthWindow ==>
              s.metrics[i].measureTime <= m.measureTime)
        && h == AssessSnapshot(m)
  {
    match LatestSince(s.metrics, now - HealthWindow)
    case None => Health(100, [], Healthy)
    case Some(m) => AssessSnapshot(m)
  }

  /** All three rules fire: 100 - 20 - 15 - 10 = 55, a warning. */
  lemma AllRulesGiveWarning(m: NetworkMetric)
    requires ArpHigh(m) && TrafficHigh(m) && UdpHigh(m)
    ensures AssessSnapshot(m).score == 55 && AssessSnapshot(m).status == Warning
    ensures |AssessSnapshot(m).issues| == 3
  {
  }

  /** A snapshot that trips a superset of the rules never scores higher. */
  lemma MoreRulesNeverRaiseScore(m1: NetworkMetric, m2: NetworkMetric)
    requires ArpHigh(m1) ==> ArpHigh(m2)
    requires TrafficHigh(m1) ==> TrafficHigh(m2)
    requires UdpHigh(m1) ==> UdpHigh(m2)
    ensures AssessSnapshot(m2).score <= AssessSnapshot(m1).score
  {
  }

  /** The healthy verdict in terms of the rules: the ARP rule did not fire, and
      the traffic and UDP rules did not both fire. */
  lemma HealthyIff(m: NetworkMetric)
    ensures AssessSnapshot(m).status == Healthy <==> !ArpHigh(m) && !(TrafficHigh(m) && UdpHigh(m))
  {
  }
}

=== FILE: common.dfy ===
/**
 Shared vocabulary of the telemetry back end: optional values, the outcome of an
 operation that can raise, and the integer clock used everywhere.

 Clock values are whole seconds since the Unix epoch, in UTC. Calendar days are
 numbered the same way, so that `DateOf` plays the role of SQL `date(...)` and of
 Python's `datetime.date()`.
 */
module Common {

  datatype Option<+T> = None | Some(value: T)

  /** What the source raises. `MissingField` stands for the `KeyError` (or the
      `TypeError` of indexing a missing payload) raised while reading a message;
      `NotConnected` for the `ValueError` of `list.remove` on an absent element;
      `InvalidKeyword` for the `TypeError` a mapped row's constructor raises on a
      keyword argument that names no column. */
  datatype Error = MissingField(field: string) | NotConnected | InvalidKeyword(keyword: string)

  datatype Result<+T> = Ok(value: T) | Err(error: Error)

  const SecondsPerDay: int := 86400
  const SecondsPerMinute: int := 60
  const SecondsPerHour: int := 3600

  /** The UTC calendar day of a clock value: floor division, so that instants
      before the epoch land on the day they belong to. */
  function DateOf(t: int): (d: int)
    ensures d * SecondsPerDay <= t < (d + 1) * SecondsPerDay
  {
    t / SecondsPerDay
  }

  /** No element occurs twice. */
  predicate NoDuplicates<T(==)>(xs: seq<T>)
  {
    forall i, j :: 0 <= i < j < |xs| ==> xs[i] != xs[j]
  }

  /** Python truthiness of an optional text column: `None` and `""` are falsy. */
  predicate Truthy(s: Option<string>)
  {
    s.Some? && s.value != ""
  }

  /** `s or fallback` in Python, for an optional text column. */
  function OrElse(s: Option<string>, fallback: string): (r: string)
    ensures Truthy(s) ==> r == s.value
    ensures !Truthy(s) ==> r == fallback
    ensures r != "" || fallback == ""
  {
    if Truthy(s) then s.value else fallback
  }
}

=== FILE: event_processor.dfy ===
/**
 The event processor: dispatch of one inbound telemetry message on its subtype,
 and the handlers that write the device table, the event log and the metric
 series. Each handler either commits all of its writes (`Ok` with the new store)
 or raises before committing (`Err`, and the caller keeps the old store).
 */
module EventProcessor {
  import opened Common
  import opened Store
  import Analytics

  /** A text value read from a JSON object: the key may be missing, map to
      `null`, or map to a string. */
  datatype Field = Absent | Null | Text(text: string)

  /** `payload["device"]` of a lifecycle event. `deviceId == None` means the
      `device_id` key is missing. */
  datatype DevicePayload = DevicePayload(
    deviceId: Option<string>,
    hostname: Field,
    ipAddress: Field,
    deviceType: Field,
    os: Field,
    vendor: Field)

  /** The parts of `message["payload"]` the handlers read. A `None` stands for a
      missing key; a timestamp arrives already converted to clock seconds, and
      one that does not parse is treated as missing. */
  datatype Payload = Payload(
    device: Option<DevicePayload>,
    timestamp: Option<int>,
    metrics: Option<map<string, int>>)

  datatype Message = Message(subtype: Option<string>, payload: Payload)

  const PERIODIC_METRIC_STATE: string := "PERIODIC_METRIC_STATE"

  /** The keys of `payload["metrics"]`, in the order the metric handler reads them. */
  const MetricKeys: seq<string> := [
    "measure_time", "total_devices", "active_devices", "data_sent", "data_received",
    "arp_requests", "tcp_packets", "udp_packets", "icmp_packets", "total_packets"]

  /** The column value a present JSON field writes: `null` becomes SQL NULL. */
  function Column(f: Field): Option<string>
  {
    if f.Text? then Some(f.text) else None
  }

  /** The reads both lifecycle handlers start with: the device object, its
      identifier and the timestamp, in that order. */
  function ReadHeader(p: Payload): (r: Result<(string, int)>)
    ensures r.Ok? <==> p.device.Some? && p.device.value.deviceId.Some? && p.timestamp.Some?
    ensures r.Ok? ==> r.value == (p.device.value.deviceId.value, p.timestamp.value)
  {
    if p.device.None? then Err(MissingField("device"))
    else if p.device.value.deviceId.None? then Err(MissingField("device_id"))
    else if p.timestamp.None? then Err(MissingField("timestamp"))
    else Ok((p.device.value.deviceId.value, p.timestamp.value))
  }

  predicate AttributesPresent(d: DevicePayload)
  {
    d.hostname != Absent && d.ipAddress != Absent && d.deviceType != Absent
    && d.os != Absent && d.vendor != Absent
  }

  /** The row a join creates for an unknown identifier, reading the five
      attributes in source order. */
  function NewDevice(d: DevicePayload, id: string, ts: int): (r: Result<Device>)
    ensures r.Ok? <==> AttributesPresent(d)
    ensures r.Ok? ==> r.value.deviceId == id && r.value.status == ACTIVE
    ensures r.Ok? ==> r.value.firstSeen == r.value.lastSeen == Some(ts)
    ensures r.Ok? ==> r.value.hostname == Column(d.hostname) && r.value.ipAddress == Column(d.ipAddress)
                      && r.value.deviceType == Column(d.deviceType) && r.value.os == Column(d.os)
                      && r.value.vendor == Column(d.vendor)
  {
    if d.hostname == Absent then Err(MissingField("hostname"))
    else if d.ipAddress == Absent then Err(MissingField("ip_address"))
    else if d.deviceType == Absent then Err(MissingField("device_type"))
    else if d.os == Absent then Err(MissingField("os"))
    else if d.vendor == Absent then Err(MissingField("vendor"))
    else Ok(Device(id, Column(d.hostname), Column(d.ipAddress), Column(d.deviceType),
                   Column(d.os), Column(d.vendor), Some(ts), Some(ts), ACTIVE))
  }

  /** A device already on record, as a join leaves it. */
  function Rejoined(d: Device, ts: int): Device
  {
    d.(lastSeen := Some(ts), status := ACTIVE)
  }

  /** A device already on record, as an idle event leaves it. */
  function Idled(d: Device, ts: int): Device
  {
    d.(status := INACTIVE, lastSeen := Some(ts))
  }

  /** `handle_device_joined`: upsert the device and log the event. A join of a
      known device reads none of the attributes, so only a join of an unknown
      device can fail on a missing one. */
  function HandleDeviceJoined(s: Store, p: Payload): (r: Result<Store>)
    ensures r.Ok? <==> ReadHeader(p).Ok?
                       && (HasId(s.devices, ReadHeader(p).value.0) || AttributesPresent(p.device.value))
    ensures r.Ok? ==>
      var (id, ts) := ReadHeader(p).value;
      && r.value.metrics == s.metrics
      && r.value.events == s.events + [DeviceEvent(id, DEVICE_JOINED, ts)]
      && (forall other :: other != id ==> Lookup(r.value.devices, other) == Lookup(s.devices, other))
      && (match Lookup(s.devices, id)
          case Some(d) =>
            && Lookup(r.value.devices, id) == Some(Rejoined(d, ts))
            && |r.value.devices| == |s.devices|
          case None =>
            && Lookup(r.value.devices, id) == Some(NewDevice(p.device.value, id, ts).value)
            && r.value.devices == s.devices + [NewDevice(p.device.value, id, ts).value])
    ensures r.Ok? && Valid(s) ==> Valid(r.value)
  {
    match ReadHeader(p)
    case Err(e) => Err(e)
    case Ok((id, ts)) =>
      var logged := s.events + [DeviceEvent(id, DEVICE_JOINED, ts)];
      match IndexOf(s.devices, id)
      case Some(k) =>
        var ds := s.devices[k := Rejoined(s.devices[k], ts)];
        forall other
          ensures Lookup(ds, other)
            == if other == id then Some(Rejoined(s.devices[k], ts)) else Lookup(s.devices, other)
        {
          LookupUpdate(s.devices, k, Rejoined(s.devices[k], ts), other);
        }
        assert Valid(s) ==> UniqueIds(ds) by {
          if Valid(s) { UpdateKeepsUnique(s.devices, k, Rejoined(s.devices[k], ts)); }
        }
        Ok(s.(devices := ds, events := logged))
      case None =>
        match NewDevice(p.device.value, id, ts)
        case Err(e) => Err(e)
        case Ok(d) =>
          forall other
            ensures Lookup(s.devices + [d], other)
              == if HasId(s.devices, other) then Lookup(s.devices, other)
                 else if d.deviceId == other then Some(d) else None
          {
            LookupAppend(s.devices, d, other);
          }
          assert Valid(s) ==> UniqueIds(s.devices + [d]) by {
            if Valid(s) { AppendKeepsUnique(s.devices, d); }
          }
          Ok(s.(devices := s.devices + [d], events := logged))
  }

  /** `handle_device_idle`: mark a known device inactive and log the event; an
      unknown identifier is logged but creates no row. */
  function HandleDeviceIdle(s: Store, p: Payload): (r: Result<Store>)
    ensures r.Ok? <==> ReadHeader(p).Ok?
    ensures r.Ok? ==>
      var (id, ts) := ReadHeader(p).value;
      && r.value.metrics == s.metrics
      && r.value.events == s.events + [DeviceEvent(id, DEVICE_IDLE, ts)]
      && |r.value.devices| == |s.devices|
      && (forall other :: other != id ==> Lookup(r.value.devices, other) == Lookup(s.devices, other))
      && (match Lookup(s.devices, id)
          case Some(d) => Lookup(r.value.devices, id) == Some(Idled(d, ts))
          case None => r.value.devices == s.devices)
    ensures r.Ok? && Valid(s) ==> Valid(r.value)
  {
    match ReadHeader(p)
    case Err(e) => Err(e)
    case Ok((id, ts)) =>
      var logged := s.events + [DeviceEvent(id, DEVICE_IDLE, ts)];
      match IndexOf(s.devices, id)
      case Some(k) =>
        var ds := s.devices[k := Idled(s.devices[k], ts)];
        forall other
          ensures Lookup(ds, other)
            == if other == id then Some(Idled(s.devices[k], ts)) else Lookup(s.devices, other)
        {
          LookupUpdate(s.devices, k, Idled(s.devices[k], ts), other);
        }
        assert Valid(s) ==> UniqueIds(ds) by {
          if Valid(s) { UpdateKeepsUnique(s.devices, k, Idled(s.devices[k], ts)); }
        }
        Ok(s.(devices := ds, events := logged))
      case None =>
        Ok(s.(events := logged))
  }

  /** The first of `keys` that `m` lacks: the `KeyError` a sequence of reads raises. */
  function FirstMissingKey(m: map<string, int>, keys: seq<string>): (r: Option<string>)
    ensures r.None? <==> forall i :: 0 <= i < |keys| ==> keys[i] in m
    ensures r.Some? ==> r.value in keys && r.value !in m
    ensures r.Some? ==> exists k :: 0 <= k < |keys| && keys[k] == r.value
                                    && forall j :: 0 <= j < k ==> keys[j] in m
  {
    if |keys| == 0 then None
    else if keys[0] !in m then Some(keys[0])
    else
      var rest := FirstMissingKey(m, keys[1..]);
      assert forall i :: 1 <= i < |keys| ==> keys[i] == keys[1..][i - 1];
      assert rest.Some? ==> exists k :: 0 <= k < |keys| && keys[k] == rest.value
                                        && forall j :: 0 <= j < k ==> keys[j] in m by {
        if rest.Some? {
          var k :| 0 <= k < |keys[1..]| && keys[1..][k] == rest.value
                   && forall j :: 0 <= j < k ==> keys[1..][j] in m;
          assert keys[k + 1] == rest.value;
          assert forall j :: 0 <= j < k + 1 ==> keys[j] in m;
        }
      }
      rest
  }

  /** Every key the metric handler reads is present. */
  predicate Complete(m: map<string, int>)
  {
    forall i :: 0 <= i < |MetricKeys| ==> MetricKeys[i] in m
  }

  /** The metric row built from a complete `metrics` object: each counter is
      the payload's value for the matching key. */
  function MetricRow(m: map<string, int>): (row: NetworkMetric)
    requires Complete(m)
    ensures "measure_time" in m && row.measureTime == m["measure_time"]
    ensures "total_devices" in m && row.totalDevices == m["total_devices"]
    ensures "active_devices" in m && row.activeDevices == m["active_devices"]
    ensures "data_sent" in m && row.dataSent == m["data_sent"]
    ensures "data_received" in m && row.dataReceived == m["data_received"]
    ensures "arp_requests" in m && row.arpRequests == m["arp_requests"]
    ensures "tcp_packets" in m && row.tcpPackets == m["tcp_packets"]
    ensures "udp_packets" in m && row.udpPackets == m["udp_packets"]
    ensures "icmp_packets" in m && row.icmpPackets == m["icmp_packets"]
    ensures "total_packets" in m && row.totalPackets == m["total_packets"]
  {
    assert MetricKeys[0] in m && MetricKeys[1] in m && MetricKeys[2] in m && MetricKeys[3] in m
      && MetricKeys[4] in m && MetricKeys[5] in m && MetricKeys[6] in m && MetricKeys[7] in m
      && MetricKeys[8] in m && MetricKeys[9] in m;
    NetworkMetric(
      m["measure_time"], m["total_devices"], m["active_devices"], m["data_sent"], m["data_received"],
      m["arp_requests"], m["tcp_packets"], m["udp_packets"], m["icmp_packets"], m["total_packets"])
  }

  /** `handle_metric`: append one metric row whose counters are the payload's.
      Every key is required; the devices and the event log are untouched. */
  function HandleMetric(s: Store, p: Payload): (r: Result<Store>)
    ensures r.Ok? <==> p.metrics.Some? && Complete(p.metrics.value)
    ensures r.Ok? ==> r.value.devices == s.devices && r.value.events == s.events
    ensures r.Ok? ==> r.value.metrics == s.metrics + [MetricRow(p.metrics.value)]
    ensures r.Err? && p.metrics.None? ==> r.error == MissingField("metrics")
    ensures r.Err? && p.metrics.Some? ==>
      r.error.MissingField? && r.error.field in MetricKeys && r.error.field !in p.metrics.value
  {
    if p.metrics.None? then Err(MissingField("metrics"))
    else
      match FirstMissingKey(p.metrics.value, MetricKeys)
      case Some(k) => Err(MissingField(k))
      case None => Ok(s.(metrics := s.metrics + [MetricRow(p.metrics.value)]))
  }

  // ---------------------------------------------------------------------------
  // The event-log row as the handlers construct it
  // ---------------------------------------------------------------------------

  /** The mapped columns of `device_events`, each of which the constructor
      accepts as a keyword. When `id` is not given the database generates it;
      the model's log row does not carry it. */
  const DeviceEventColumns: seq<string> := ["id", "device_id", "event_type", "timestamp"]

  /** The keyword arguments the two lifecycle handlers pass to the log row's
      constructor, as written: the three columns and `raw_json`. */
  const LogKeywordsAsWritten: seq<string> := ["device_id", "event_type", "timestamp", "raw_json"]

  /** The keyword arguments of the log row without `raw_json`, as the rest of
      the model stores it. */
  const LogKeywords: seq<string> := ["device_id", "event_type", "timestamp"]

  /** The first keyword argument that names no column, if any. */
  function UnknownKeyword(kws: seq<string>): (r: Option<string>)
    ensures r.None? <==> forall i :: 0 <= i < |kws| ==> kws[i] in DeviceEventColumns
    ensures r.Some? ==> r.value in kws && r.value !in DeviceEventColumns
    ensures r.Some? ==> exists k :: 0 <= k < |kws| && kws[k] == r.value
                                    && forall j :: 0 <= j < k ==> kws[j] in DeviceEventColumns
  {
    if |kws| == 0 then None
    else if kws[0] !in DeviceEventColumns then Some(kws[0])
    else
      var rest := UnknownKeyword(kws[1..]);
      assert forall i :: 1 <= i < |kws| ==> kws[i] == kws[1..][i - 1];
      assert rest.Some? ==> exists k :: 0 <= k < |kws| && kws[k] == rest.value
                                        && forall j :: 0 <= j < k ==> kws[j] in DeviceEventColumns by {
        if rest.Some? {
          var k :| 0 <= k < |kws[1..]| && kws[1..][k] == rest.value
                   && forall j :: 0 <= j < k ==> kws[1..][j] in DeviceEventColumns;
          assert kws[k + 1] == rest.value;
          assert forall j :: 0 <= j < k + 1 ==> kws[j] in DeviceEventColumns;
        }
      }
      rest
  }

  /** The log row's constructor: it raises on a keyword that is not a column. */
  function NewLogRow(kws: seq<string>, id: string, eventType: string, ts: int): (r: Result<DeviceEvent>)
    ensures r.Ok? <==> forall i :: 0 <= i < |kws| ==> kws[i] in DeviceEventColumns
    ensures r.Ok? ==> r.value == DeviceEvent(id, eventType, ts)
    ensures r.Err? ==> r.error.InvalidKeyword? && r.error.keyword in kws
                       && r.error.keyword !in DeviceEventColumns
  {
    match UnknownKeyword(kws)
    case Some(k) => Err(InvalidKeyword(k))
    case None => Ok(DeviceEvent(id, eventType, ts))
  }

  /** The log row the rest of the model appends is constructible, and it is
      exactly the (device, type, timestamp) entry the handlers log. */
  lemma LogRowWithoutRawJson(id: string, eventType: string, ts: int)
    ensures NewLogRow(LogKeywords, id, eventType, ts) == Ok(DeviceEvent(id, eventType, ts))
  {
    assert forall i :: 0 <= i < |LogKeywords| ==> LogKeywords[i] in DeviceEventColumns;
  }

  /** `handle_device_joined` as written: every read and every table write of
      the corrected handler, then the log row's constructor with `raw_json`,
      which raises before the commit. */
  function HandleDeviceJoinedAsWritten(s: Store, p: Payload): (r: Result<Store>)
    ensures r.Err?
    ensures HandleDeviceJoined(s, p).Err? ==> r == HandleDeviceJoined(s, p)
    ensures HandleDeviceJoined(s, p).Ok? ==> r == Err(InvalidKeyword("raw_json"))
  {
    match HandleDeviceJoined(s, p)
    case Err(e) => Err(e)
    case Ok(s1) =>
      var (id, ts) := ReadHeader(p).value;
      assert UnknownKeyword(LogKeywordsAsWritten) == Some("raw_json") by {
        assert UnknownKeyword(LogKeywordsAsWritten[3..]) == Some("raw_json");
        assert LogKeywordsAsWritten[1..][1..][1..] == LogKeywordsAsWritten[3..];
      }
      match NewLogRow(LogKeywordsAsWritten, id, DEVICE_JOINED, ts)
      case Err(e) => Err(e)
      case Ok(_) => Ok(s1)
  }

  /** `handle_device_idle` as written, likewise. */
  function HandleDeviceIdleAsWritten(s: Store, p: Payload): (r: Result<Store>)
    ensures r.Err?
    ensures HandleDeviceIdle(s, p).Err? ==> r == HandleDeviceIdle(s, p)
    ensures HandleDeviceIdle(s, p).Ok? ==> r == Err(InvalidKeyword("raw_json"))
  {
    match HandleDeviceIdle(s, p)
    case Err(e) => Err(e)
    case Ok(s1) =>
      var (id, ts) := ReadHeader(p).value;
      assert UnknownKeyword(LogKeywordsAsWritten) == Some("raw_json") by {
        assert UnknownKeyword(LogKeywordsAsWritten[3..]) == Some("raw_json");
        assert LogKeywordsAsWritten[1..][1..][1..] == LogKeywordsAsWritten[3..];
      }
      match NewLogRow(LogKeywordsAsWritten, id, DEVICE_IDLE, ts)
      case Err(e) => Err(e)
      case Ok(_) => Ok(s1)
  }

  /** One well-formed join of a new device, device "aa:bb" at time 0 on an
      empty table: the corrected handler stores it and logs it, while the
      handler as written raises and stores nothing; the same payload as an
      idle event fails the same way. Every other complete event fails as
      written by the contracts of the two handlers above. */
  lemma RawJsonBlocksSampleEvent()
    ensures var p := Payload(Some(DevicePayload(Some("aa:bb"), Text("h"), Text("10.0.0.2"), Null, Null, Null)),
                             Some(0), None);
      var empty := Store([], [], []);
      && HandleDeviceJoined(empty, p).Ok?
      && |HandleDeviceJoined(empty, p).value.devices| == 1
      && HandleDeviceJoinedAsWritten(empty, p) == Err(InvalidKeyword("raw_json"))
      && HandleDeviceIdle(empty, p).Ok?
      && HandleDeviceIdleAsWritten(empty, p) == Err(InvalidKeyword("raw_json"))
  {
    var p := Payload(Some(DevicePayload(Some("aa:bb"), Text("h"), Text("10.0.0.2"), Null, Null, Null)),
                     Some(0), None);
    assert !HasId([], "aa:bb");
  }

  /** `process_event`: dispatch on the subtype. Only the three handled subtypes
      write anything; any other subtype, `PERIODIC_TOPOLOGY_STATE` included, and
      a missing subtype leave the store as it was. */
  function ProcessEvent(s: Store, msg: Message): (r: Result<Store>)
    ensures msg.subtype == Some(DEVICE_JOINED) ==> r == HandleDeviceJoined(s, msg.payload)
    ensures msg.subtype == Some(DEVICE_IDLE) ==> r == HandleDeviceIdle(s, msg.payload)
    ensures msg.subtype == Some(PERIODIC_METRIC_STATE) ==> r == HandleMetric(s, msg.payload)
    ensures msg.subtype !in {Some(DEVICE_JOINED), Some(DEVICE_IDLE), Some(PERIODIC_METRIC_STATE)}
            ==> r == Ok(s)
    ensures r.Ok? ==> |s.events| <= |r.value.events| <= |s.events| + 1
                      && r.value.events[..|s.events|] == s.events
    ensures r.Ok? ==> |s.metrics| <= |r.value.metrics| <= |s.metrics| + 1
                      && r.value.metrics[..|s.metrics|] == s.metrics
    ensures r.Ok? ==> forall id :: HasId(s.devices, id) ==> HasId(r.value.devices, id)
    ensures r.Ok? && Valid(s) ==> Valid(r.value)
  {
    if msg.subtype == Some(DEVICE_JOINED) then
      var r := HandleDeviceJoined(s, msg.payload);
      assert r.Ok? ==> r.value.events[..|s.events|] == s.events;
      assert r.Ok? ==> forall id :: HasId(s.devices, id) ==> Lookup(r.value.devices, id).Some?;
      r
    else if msg.subtype == Some(DEVICE_IDLE) then
      var r := HandleDeviceIdle(s, msg.payload);
      assert r.Ok? ==> r.value.events[..|s.events|] == s.events;
      assert r.Ok? ==> forall id :: HasId(s.devices, id) ==> Lookup(r.value.devices, id).Some?;
      r
    else if msg.subtype == Some(PERIODIC_METRIC_STATE) then
      var r := HandleMetric(s, msg.payload);
      assert r.Ok? ==> r.value.metrics[..|s.metrics|] == s.metrics;
      r
    else
      Ok(s)
  }

  /** A device first reported by the discovery engine: only its identifier is
      known, and it is active as of `now`. */
  function EngineDevice(id: string, now: int): Device
  {
    Device(id, None, None, None, None, None, Some(now), Some(now), ACTIVE)
  }

  /** One pass of the sync loop: create the engine device when the identifier
      is unknown, and otherwise leave the table alone. */
  function EnsurePresent(s: Store, id: string, now: int): (r: Store)
    ensures r.events == s.events && r.metrics == s.metrics
    ensures |s.devices| <= |r.devices| && r.devices[..|s.devices|] == s.devices
    ensures forall x {:trigger Lookup(r.devices, x)} :: (Lookup(r.devices, x)
      == if HasId(s.devices, x) then Lookup(s.devices, x)
         else if x == id then Some(EngineDevice(id, now)) else None)
    ensures Valid(s) ==> Valid(r)
  {
    if HasId(s.devices, id) then s
    else
      var d := EngineDevice(id, now);
      forall x
        ensures Lookup(s.devices + [d], x)
          == if HasId(s.devices, x) then Lookup(s.devices, x) else if x == id then Some(d) else None
      {
        LookupAppend(s.devices, d, x);
      }
      assert Valid(s) ==> UniqueIds(s.devices + [d]) by {
        if Valid(s) { AppendKeepsUnique(s.devices, d); }
      }
      assert (s.devices + [d])[..|s.devices|] == s.devices;
      s.(devices := s.devices + [d])
  }

  lemma NoDuplicatesTail(ids: seq<string>)
    requires |ids| > 0 && NoDuplicates(ids)
    ensures NoDuplicates(ids[1..])
    ensures ids[0] !in ids[1..]
    ensures forall x :: x in ids <==> x == ids[0] || x in ids[1..]
  {
    forall i, j | 0 <= i < j < |ids[1..]| ensures ids[1..][i] != ids[1..][j] {
      assert ids[1..][i] == ids[i + 1] && ids[1..][j] == ids[j + 1];
    }
    assert ids == [ids[0]] + ids[1..];
  }

  /** `sync_devices_from_engine`: make every listed identifier present, creating
      the missing ones; rows already on record are not touched, and nothing
      else appears. */
  function SyncDevicesFromEngine(s: Store, ids: seq<string>, now: int): (r: Store)
    requires NoDuplicates(ids)
    ensures r.events == s.events && r.metrics == s.metrics
    ensures |s.devices| <= |r.devices| && r.devices[..|s.devices|] == s.devices
    ensures forall x {:trigger Lookup(r.devices, x)} :: (Lookup(r.devices, x)
      == if HasId(s.devices, x) then Lookup(s.devices, x)
         else if x in ids then Some(EngineDevice(x, now)) else None)
    ensures forall id :: id in ids ==> HasId(r.devices, id)
    ensures Valid(s) ==> Valid(r)
    decreases |ids|
  {
    if |ids| == 0 then s
    else
      var s1 := EnsurePresent(s, ids[0], now);
      NoDuplicatesTail(ids);
      var r := SyncDevicesFromEngine(s1, ids[1..], now);
      assert r.devices[..|s.devices|] == s.devices by {
        assert r.devices[..|s1.devices|][..|s.devices|] == r.devices[..|s.devices|];
      }
      assert forall x :: (Lookup(r.devices, x)
        == if HasId(s.devices, x) then Lookup(s.devices, x)
           else if x in ids then Some(EngineDevice(x, now)) else None) by {
        forall x
          ensures Lookup(r.devices, x)
            == if HasId(s.devices, x) then Lookup(s.devices, x)
               else if x in ids then Some(EngineDevice(x, now)) else None
        {
          assert Lookup(r.devices, x)
            == if HasId(s1.devices, x) then Lookup(s1.devices, x)
               else if x in ids[1..] then Some(EngineDevice(x, now)) else None;
        }
      }
      assert forall id :: id in ids ==> HasId(r.devices, id) by {
        forall id | id in ids ensures HasId(r.devices, id) {
          assert Lookup(r.devices, id).Some?;
        }
      }
      r
  }

  /** The event processor's own copy of the dashboard counters; it reads the
      same four counts as the analytics service. */
  function DashboardStats(s: Store, now: int): (r: Analytics.DashboardCounts)
    ensures r.totalDevices == |s.devices|
    ensures r.newDevicesToday == |Analytics.Matching(s.devices, Analytics.FirstSeenOn(DateOf(now)))|
    ensures r.activeDevices == |Analytics.Matching(s.devices, Analytics.WithStatus(ACTIVE))|
    ensures r.inactiveDevices == |Analytics.Matching(s.devices, Analytics.WithStatus(INACTIVE))|
    ensures r.activeDevices + r.inactiveDevices <= r.totalDevices
    ensures r.newDevicesToday <= r.totalDevices
  {
    Analytics.DashboardStats(s, now)
  }
}

=== FILE: pipeline_properties.dfy ===
/**
 Properties that span the event processor and the aggregates read from the
 store: what one processed event does to the dashboard counters, the event
 counts, the windowed metric sums and the health verdict.
 */
module PipelineProperties {
  import opened Common
  import opened Store
  import opened EventProcessor
  import opened Analytics

  /** Two joins for one identifier leave exactly one row for it, last seen at
      the second timestamp, and two log entries. */
  lemma TwoJoinsSameDevice(s: Store, p1: Payload, p2: Payload)
    requires Valid(s)
    requires HandleDeviceJoined(s, p1).Ok?
    requires ReadHeader(p2).Ok? && ReadHeader(p2).value.0 == ReadHeader(p1).value.0
    ensures var s1 := HandleDeviceJoined(s, p1).value;
      var r := HandleDeviceJoined(s1, p2);
      var (id, t1) := ReadHeader(p1).value;
      var t2 := ReadHeader(p2).value.1;
      && r.Ok?
      && CountId(r.value.devices, id) == 1
      && Lookup(r.value.devices, id).value.lastSeen == Some(t2)
      && Lookup(r.value.devices, id).value.status == ACTIVE
      && r.value.events == s.events + [DeviceEvent(id, DEVICE_JOINED, t1), DeviceEvent(id, DEVICE_JOINED, t2)]
  {
    var s1 := HandleDeviceJoined(s, p1).value;
    var id := ReadHeader(p1).value.0;
    assert Lookup(s1.devices, id).Some?;
    var r := HandleDeviceJoined(s1, p2).value;
    assert Lookup(r.devices, id).Some?;
    UniqueCountIsOne(r.devices, id);
  }

  /** A join of an unknown device adds one active device to the dashboard, and
      one new device for today when it joined today. */
  lemma JoinNewDeviceCounts(s: Store, p: Payload, now: int)
    requires HandleDeviceJoined(s, p).Ok?
    requires !HasId(s.devices, ReadHeader(p).value.0)
    ensures var before := Analytics.DashboardStats(s, now);
      var after := Analytics.DashboardStats(HandleDeviceJoined(s, p).value, now);
      var ts := ReadHeader(p).value.1;
      && after.totalDevices == before.totalDevices + 1
      && after.activeDevices == before.activeDevices + 1
      && after.inactiveDevices == before.inactiveDevices
      && after.newDevicesToday == before.newDevicesToday + (if DateOf(ts) == DateOf(now) then 1 else 0)
  {
    var (id, ts) := ReadHeader(p).value;
    var d := NewDevice(p.device.value, id, ts).value;
    var r := HandleDeviceJoined(s, p).value;
    assert r.devices == s.devices + [d];
    CountDevicesAppend(s.devices, d, WithStatus(ACTIVE));
    CountDevicesAppend(s.devices, d, WithStatus(INACTIVE));
    CountDevicesAppend(s.devices, d, FirstSeenOn(DateOf(now)));
  }

  /** An idle event for a known active device moves it from the active to the
      inactive count; the total does not change. */
  lemma IdleActiveDeviceCounts(s: Store, p: Payload, now: int)
    requires HandleDeviceIdle(s, p).Ok?
    requires var id := ReadHeader(p).value.0;
      Lookup(s.devices, id).Some? && Lookup(s.devices, id).value.status == ACTIVE
    ensures var before := Analytics.DashboardStats(s, now);
      var after := Analytics.DashboardStats(HandleDeviceIdle(s, p).value, now);
      && after.totalDevices == before.totalDevices
      && after.activeDevices + 1 == before.activeDevices
      && after.inactiveDevices == before.inactiveDevices + 1
      && after.newDevicesToday == before.newDevicesToday
  {
    var (id, ts) := ReadHeader(p).value;
    var k := IndexOf(s.devices, id).value;
    var d := Idled(s.devices[k], ts);
    assert HandleDeviceIdle(s, p).value.devices == s.devices[k := d];
    CountDevicesUpdate(s.devices, k, d, WithStatus(ACTIVE));
    CountDevicesUpdate(s.devices, k, d, WithStatus(INACTIVE));
    CountDevicesUpdate(s.devices, k, d, FirstSeenOn(DateOf(now)));
  }

  /** A logged join within the last hour adds one to that device's activity
      count and to no other device's; one logged today adds one connection. */
  lemma JoinEventCounts(s: Store, p: Payload, now: int, other: string)
    requires HandleDeviceJoined(s, p).Ok?
    ensures var r := HandleDeviceJoined(s, p).value;
      var (id, ts) := ReadHeader(p).value;
      && CountEvents(r.events, ForDeviceSince(id, now - SecondsPerHour))
         == CountEvents(s.events, ForDeviceSince(id, now - SecondsPerHour)) + (if ts >= now - SecondsPerHour then 1 else 0)
      && (other != id ==> CountEvents(r.events, ForDeviceSince(other, now - SecondsPerHour))
                          == CountEvents(s.events, ForDeviceSince(other, now - SecondsPerHour)))
      && DeviceConnectionsToday(r, now)
         == DeviceConnectionsToday(s, now) + (if DateOf(ts) == DateOf(now) then 1 else 0)
  {
    var (id, ts) := ReadHeader(p).value;
    var e := DeviceEvent(id, DEVICE_JOINED, ts);
    CountEventsAppend(s.events, e, ForDeviceSince(id, now - SecondsPerHour));
    CountEventsAppend(s.events, e, ForDeviceSince(other, now - SecondsPerHour));
    CountEventsAppend(s.events, e, JoinedOn(DateOf(now)));
  }

  /** An idle event is never counted as a connection. */
  lemma IdleIsNoConnection(s: Store, p: Payload, now: int)
    requires HandleDeviceIdle(s, p).Ok?
    ensures DeviceConnectionsToday(HandleDeviceIdle(s, p).value, now) == DeviceConnectionsToday(s, now)
  {
    var (id, ts) := ReadHeader(p).value;
    CountEventsAppend(s.events, DeviceEvent(id, DEVICE_IDLE, ts), JoinedOn(DateOf(now)));
  }

  /** A stored snapshot adds its counters to every windowed sum whose window
      it falls in, and leaves the others alone. */
  lemma MetricWindowSums(s: Store, p: Payload, f: MetricFilter, c: Counter)
    requires HandleMetric(s, p).Ok?
    ensures var row := MetricRow(p.metrics.value);
      Sum(Select(HandleMetric(s, p).value.metrics, f), c)
        == Sum(Select(s.metrics, f), c) + (if MetricMatches(row, f) then Get(row, c) else 0)
  {
    var row := MetricRow(p.metrics.value);
    SelectAppend(s.metrics, row, f);
    if MetricMatches(row, f) {
      SumAppend(Select(s.metrics, f), row, c);
    } else {
      assert Select(s.metrics, f) + [] == Select(s.metrics, f);
    }
  }

  /** A snapshot measured inside the health window and strictly after every
      stored one is the one the health verdict is taken from. */
  lemma NewestSnapshotDecidesHealth(s: Store, p: Payload, now: int)
    requires HandleMetric(s, p).Ok?
    requires var row := MetricRow(p.metrics.value);
      row.measureTime >= now - HealthWindow
      && forall i :: 0 <= i < |s.metrics| ==> s.metrics[i].measureTime < row.measureTime
    ensures NetworkHealth(HandleMetric(s, p).value, now) == AssessSnapshot(MetricRow(p.metrics.value))
  {
    var row := MetricRow(p.metrics.value);
    var ms := HandleMetric(s, p).value.metrics;
    assert ms == s.metrics + [row];
    assert ms[|s.metrics|] == row;
    var latest := LatestSince(ms, now - HealthWindow);
    assert latest.Some?;
    assert forall m :: m in s.metrics ==> m.measureTime < row.measureTime;
  }

  /** Any subtype other than the three handled ones, the topology snapshot
      included, changes nothing any aggregate could see. */
  lemma UnhandledSubtypeChangesNothing(s: Store, p: Payload, now: int)
    ensures var m := Message(Some("PERIODIC_TOPOLOGY_STATE"), p);
      && ProcessEvent(s, m) == Ok(s)
      && Analytics.DashboardStats(ProcessEvent(s, m).value, now) == Analytics.DashboardStats(s, now)
  {
  }
}

=== FILE: report_service.dfy ===
/**
 The daily report: the dashboard's device counts and the day's metric sums,
 for a given UTC day or, when none is given, for the current one.
 */
module ReportService {
  import opened Common
  import opened Store
  import opened Analytics

  /** The report row. `date` is the day number; the source writes it as its
      ISO calendar string. Byte and packet fields are raw sums. */
  datatype DailyReport = DailyReport(
    date: int,
    totalDevices: nat,
    newDevices: nat,
    activeDevices: nat,
    inactiveDevices: nat,
    dataSent: int,
    dataReceived: int,
    totalPackets: int)

  /** `generate_daily_report`. */
  function GenerateDailyReport(s: Store, reportDate: Option<int>, now: int): (r: DailyReport)
    ensures reportDate.None? ==> r.date == DateOf(now)
    ensures reportDate.Some? ==> r.date == reportDate.value
    ensures r.totalDevices == |s.devices|
    ensures r.newDevices == |Matching(s.devices, FirstSeenOn(r.date))|
    ensures r.activeDevices == |Matching(s.devices, WithStatus(ACTIVE))|
    ensures r.inactiveDevices == |Matching(s.devices, WithStatus(INACTIVE))|
    ensures r.newDevices <= r.totalDevices
    ensures r.activeDevices + r.inactiveDevices <= r.totalDevices
    ensures r.newDevices == 0 <==>
      forall i :: 0 <= i < |s.devices| ==>
        s.devices[i].firstSeen.None? || DateOf(s.devices[i].firstSeen.value) != r.date
    ensures var w := Select(s.metrics, OnDay(r.date));
      r.dataSent == Sum(w, DataSent) && r.dataReceived == Sum(w, DataReceived)
      && r.totalPackets == Sum(w, TotalPackets)
    ensures (forall i :: 0 <= i < |s.metrics| ==> DateOf(s.metrics[i].measureTime) != r.date)
            ==> r.dataSent == 0 && r.dataReceived == 0 && r.totalPackets == 0
  {
    var day := if reportDate.Some? then reportDate.value else DateOf(now);
    var w := Select(s.metrics, OnDay(day));
    StatusCountsDisjoint(s.devices, ACTIVE, INACTIVE);
    CountDevicesIsMatching(s.devices, FirstSeenOn(day));
    CountDevicesIsMatching(s.devices, WithStatus(ACTIVE));
    CountDevicesIsMatching(s.devices, WithStatus(INACTIVE));
    assert (forall i :: 0 <= i < |s.metrics| ==> DateOf(s.metrics[i].measureTime) != day) ==> w == [] by {
      if |w| > 0 {
        assert w[0] in w;
      }
    }
    DailyReport(
      day,
      |s.devices|,
      CountDevices(s.devices, FirstSeenOn(day)),
      CountDevices(s.devices, WithStatus(ACTIVE)),
      CountDevices(s.devices, WithStatus(INACTIVE)),
      Sum(w, DataSent),
      Sum(w, DataReceived),
      Sum(w, TotalPackets))
  }

  /** A report for today carries the dashboard's four device counts. */
  lemma TodayReportMatchesDashboard(s: Store, now: int)
    ensures var r := GenerateDailyReport(s, None, now);
      var d := DashboardStats(s, now);
      && r.totalDevices == d.totalDevices && r.newDevices == d.newDevicesToday
      && r.activeDevices == d.activeDevices && r.inactiveDevices == d.inactiveDevices
  {
  }
}

=== FILE: store.dfy ===
/**
 The three tables of the back end, as immutable values: `devices` (one row per
 hardware address), `device_events` (an append-only log) and `network_metrics`
 (an append-only time series). The relational store is abstracted to sequences
 in primary-key order; a query's `.first()` is the earliest matching row.
 */
module Store {
  import opened Common

  const ACTIVE: string := "ACTIVE"
  const INACTIVE: string := "INACTIVE"
  const DEVICE_JOINED: string := "DEVICE_JOINED"
  const DEVICE_IDLE: string := "DEVICE_IDLE"

  /** A row of `devices`. Every column but the identifier is nullable. */
  datatype Device = Device(
    deviceId: string,
    hostname: Option<string>,
    ipAddress: Option<string>,
    deviceType: Option<string>,
    os: Option<string>,
    vendor: Option<string>,
    firstSeen: Option<int>,
    lastSeen: Option<int>,
    status: string)

  /** A row of `device_events`. */
  datatype DeviceEvent = DeviceEvent(deviceId: string, eventType: string, timestamp: int)

  /** A row of `network_metrics`. */
  datatype NetworkMetric = NetworkMetric(
    measureTime: int,
    totalDevices: int,
    activeDevices: int,
    dataSent: int,
    dataReceived: int,
    arpRequests: int,
    tcpPackets: int,
    udpPackets: int,
    icmpPackets: int,
    totalPackets: int)

  datatype Store = Store(devices: seq<Device>, events: seq<DeviceEvent>, metrics: seq<NetworkMetric>)

  /** The unique constraint on `devices.device_id`. */
  ghost predicate UniqueIds(ds: seq<Device>)
  {
    forall i, j :: 0 <= i < j < |ds| ==> ds[i].deviceId != ds[j].deviceId
  }

  ghost predicate Valid(s: Store)
  {
    UniqueIds(s.devices)
  }

  predicate HasId(ds: seq<Device>, id: string)
  {
    exists i :: 0 <= i < |ds| && ds[i].deviceId == id
  }

  /** Position of the first row with the given identifier, as `query(...).filter(...).first()`. */
  function IndexOf(ds: seq<Device>, id: string): (r: Option<nat>)
    ensures r.None? <==> !HasId(ds, id)
    ensures r.Some? ==> r.value < |ds| && ds[r.value].deviceId == id
    ensures r.Some? ==> forall k :: 0 <= k < r.value ==> ds[k].deviceId != id
  {
    if |ds| == 0 then None
    else if ds[0].deviceId == id then Some(0)
    else
      match IndexOf(ds[1..], id)
      case None => None
      case Some(k) => Some(k + 1)
  }

  /** The device row with the given identifier, if any. */
  function Lookup(ds: seq<Device>, id: string): (r: Option<Device>)
    ensures r.None? <==> !HasId(ds, id)
    ensures r.Some? ==> r.value.deviceId == id && r.value in ds
  {
    match IndexOf(ds, id)
    case None => None
    case Some(k) => Some(ds[k])
  }

  /** Number of rows carrying the given identifier. */
  function CountId(ds: seq<Device>, id: string): (n: nat)
    ensures n <= |ds|
    ensures n == 0 <==> !HasId(ds, id)
  {
    if |ds| == 0 then 0
    else (if ds[0].deviceId == id then 1 else 0) + CountId(ds[1..], id)
  }

  /** Under the unique constraint, a known identifier names exactly one row. */
  lemma {:induction false} UniqueCountIsOne(ds: seq<Device>, id: string)
    requires UniqueIds(ds)
    requires HasId(ds, id)
    ensures CountId(ds, id) == 1
  {
    if ds[0].deviceId == id {
      assert !HasId(ds[1..], id) by {
        forall k | 0 <= k < |ds[1..]|
          ensures ds[1..][k].deviceId != id
        {
          assert ds[1..][k] == ds[k + 1];
        }
      }
    } else {
      var i :| 0 <= i < |ds| && ds[i].deviceId == id;
      assert ds[1..][i - 1] == ds[i];
      UniqueCountIsOne(ds[1..], id);
    }
  }

  /** Appending a row leaves every known identifier's row in place and makes the
      new identifier known. */
  lemma {:induction false} LookupAppend(ds: seq<Device>, d: Device, id: string)
    ensures Lookup(ds + [d], id)
      == if HasId(ds, id) then Lookup(ds, id) else if d.deviceId == id then Some(d) else None
  {
    if |ds| == 0 {
      assert ds + [d] == [d];
    } else if ds[0].deviceId != id {
      assert (ds + [d])[1..] == ds[1..] + [d];
      LookupAppend(ds[1..], d, id);
      assert HasId(ds, id) <==> HasId(ds[1..], id) by {
        if HasId(ds, id) {
          var i :| 0 <= i < |ds| && ds[i].deviceId == id;
          assert ds[1..][i - 1] == ds[i];
        }
        if HasId(ds[1..], id) {
          var i :| 0 <= i < |ds[1..]| && ds[1..][i].deviceId == id;
          assert ds[i + 1] == ds[1..][i];
        }
      }
    }
  }

  /** Rewriting the row that a lookup finds, keeping its identifier, changes what
      that identifier finds and nothing else. */
  lemma {:induction false} LookupUpdate(ds: seq<Device>, k: nat, d: Device, id: string)
    requires k < |ds|
    requires IndexOf(ds, ds[k].deviceId) == Some(k)
    requires d.deviceId == ds[k].deviceId
    ensures Lookup(ds[k := d], id) == if id == d.deviceId then Some(d) else Lookup(ds, id)
  {
    IndexOfUpdate(ds, k, d, id);
  }

  /** Lookups see identifiers only, so rewriting a row without changing its
      identifier moves no identifier's position. */
  lemma {:induction false} IndexOfUpdate(ds: seq<Device>, k: nat, d: Device, id: string)
    requires k < |ds| && d.deviceId == ds[k].deviceId
    ensures IndexOf(ds[k := d], id) == IndexOf(ds, id)
  {
    if ds[0].deviceId != id {
      if k == 0 {
        assert ds[k := d][1..] == ds[1..];
      } else {
        assert ds[k := d][1..] == ds[1..][k - 1 := d];
        IndexOfUpdate(ds[1..], k - 1, d, id);
      }
    }
  }

  /** Rewriting a row without touching its identifier keeps the identifiers unique. */
  lemma UpdateKeepsUnique(ds: seq<Device>, k: nat, d: Device)
    requires UniqueIds(ds)
    requires k < |ds| && d.deviceId == ds[k].deviceId
    ensures UniqueIds(ds[k := d])
  {
  }

  /** Appending a row with a fresh identifier keeps the identifiers unique. */
  lemma AppendKeepsUnique(ds: seq<Device>, d: Device)
    requires UniqueIds(ds)
    requires !HasId(ds, d.deviceId)
    ensures UniqueIds(ds + [d])
  {
    forall i, j | 0 <= i < j < |ds + [d]|
      ensures (ds + [d])[i].deviceId != (ds + [d])[j].deviceId
    {
      if j == |ds| {
        assert (ds + [d])[i] == ds[i];
      }
    }
  }
}

=== FILE: top_bandwidth.dfy ===
/**
 The bandwidth ranking of the analytics service: per-device traffic rows are
 grouped by device over the trailing hour, summed (bytes sent plus received),
 ranked by that sum, largest first, and cut to a limit.
 */
module TopBandwidth {
  import opened Common

  /** A per-device traffic row, as the ranking query reads it. */
  datatype DeviceTraffic = DeviceTraffic(deviceId: string, dataSent: int, dataReceived: int, measureTime: int)

  /** One line of the ranking: a device and its total traffic in bytes. */
  datatype Ranked = Ranked(deviceId: string, totalTraffic: int)

  predicate Distinct(xs: seq<Ranked>)
  {
    forall i, j :: 0 <= i < j < |xs| ==> xs[i] != xs[j]
  }

  predicate SortedDesc(xs: seq<Ranked>)
  {
    forall i, j :: 0 <= i < j < |xs| ==> xs[i].totalTraffic >= xs[j].totalTraffic
  }

  predicate HasRows(rows: seq<DeviceTraffic>, id: string)
  {
    exists i :: 0 <= i < |rows| && rows[i].deviceId == id
  }

  /** The rows measured at or after `since`. */
  function InWindow(rows: seq<DeviceTraffic>, since: int): (w: seq<DeviceTraffic>)
    ensures |w| <= |rows|
    ensures forall i :: 0 <= i < |w| ==> w[i] in rows && w[i].measureTime >= since
    ensures forall i :: 0 <= i < |rows| && rows[i].measureTime >= since ==> rows[i] in w
  {
    if |rows| == 0 then []
    else
      var rest := InWindow(rows[1..], since);
      assert forall i :: 1 <= i < |rows| ==> rows[i] == rows[1..][i - 1];
      if rows[0].measureTime >= since then [rows[0]] + rest else rest
  }

  /** One more row joins the window, at the end, exactly when it is recent
      enough; together with the empty case this fixes the window's rows, their
      order and their multiplicity. */
  lemma {:induction false} InWindowAppend(rows: seq<DeviceTraffic>, x: DeviceTraffic, since: int)
    ensures InWindow(rows + [x], since) == InWindow(rows, since) + (if x.measureTime >= since then [x] else [])
  {
    if |rows| > 0 {
      assert (rows + [x])[0] == rows[0] && (rows + [x])[1..] == rows[1..] + [x];
      InWindowAppend(rows[1..], x, since);
      var tail := if x.measureTime >= since then [x] else [];
      assert [rows[0]] + (InWindow(rows[1..], since) + tail) == ([rows[0]] + InWindow(rows[1..], since)) + tail;
    } else {
      assert rows + [x] == [x];
    }
  }

  /** `sum(data_sent + data_received)` over one device's rows. */
  function TrafficOf(rows: seq<DeviceTraffic>, id: string): int
  {
    if |rows| == 0 then 0
    else (if rows[0].deviceId == id then rows[0].dataSent + rows[0].dataReceived else 0)
         + TrafficOf(rows[1..], id)
  }

  /** One more row adds its traffic to its own device's total and to no other. */
  lemma {:induction false} TrafficOfAppend(rows: seq<DeviceTraffic>, x: DeviceTraffic, id: string)
    ensures TrafficOf(rows + [x], id)
      == TrafficOf(rows, id) + (if x.deviceId == id then x.dataSent + x.dataReceived else 0)
  {
    if |rows| > 0 {
      assert (rows + [x])[1..] == rows[1..] + [x];
      TrafficOfAppend(rows[1..], x, id);
    } else {
      assert rows + [x] == [x];
    }
  }

  /** The `group_by(device_id)` keys: each device with rows, once. */
  function GroupIds(rows: seq<DeviceTraffic>): (ids: seq<string>)
    ensures NoDuplicates(ids)
    ensures forall id :: id in ids <==> HasRows(rows, id)
  {
    if |rows| == 0 then []
    else
      var rest := GroupIds(rows[1..]);
      assert forall id :: HasRows(rows, id) <==> rows[0].deviceId == id || HasRows(rows[1..], id) by {
        forall id ensures HasRows(rows, id) <==> rows[0].deviceId == id || HasRows(rows[1..], id) {
          if HasRows(rows[1..], id) {
            var i :| 0 <= i < |rows[1..]| && rows[1..][i].deviceId == id;
            assert rows[i + 1] == rows[1..][i];
          }
          if HasRows(rows, id) && rows[0].deviceId != id {
            var i :| 0 <= i < |rows| && rows[i].deviceId == id;
            assert rows[1..][i - 1] == rows[i];
          }
        }
      }
      if rows[0].deviceId in rest then rest else [rows[0].deviceId] + rest
  }

  /** Each group with its summed traffic. */
  function Totals(rows: seq<DeviceTraffic>, ids: seq<string>): (r: seq<Ranked>)
    requires NoDuplicates(ids)
    ensures |r| == |ids| && Distinct(r)
    ensures forall i :: 0 <= i < |r| ==> r[i] == Ranked(ids[i], TrafficOf(rows, ids[i]))
  {
    seq(|ids|, i requires 0 <= i < |ids| => Ranked(ids[i], TrafficOf(rows, ids[i])))
  }

  /** Insert into a list ranked largest first, ahead of any equal total. */
  function Insert(x: Ranked, xs: seq<Ranked>): (r: seq<Ranked>)
    requires SortedDesc(xs)
    ensures SortedDesc(r)
    ensures |r| == |xs| + 1
    ensures forall y :: y in r <==> y == x || y in xs
    ensures x !in xs && Distinct(xs) ==> Distinct(r)
    ensures multiset(r) == multiset{x} + multiset(xs)
  {
    if |xs| == 0 then [x]
    else if x.totalTraffic >= xs[0].totalTraffic then
      [x] + xs
    else
      var rest := Insert(x, xs[1..]);
      InsertStep(x, xs, rest);
      assert multiset(xs) == multiset{xs[0]} + multiset(xs[1..]) by {
        assert xs == [xs[0]] + xs[1..];
      }
      [xs[0]] + rest
  }

  /** The step of `Insert` past the head: the head stays in front. */
  lemma InsertStep(x: Ranked, xs: seq<Ranked>, rest: seq<Ranked>)
    requires |xs| > 0 && SortedDesc(xs) && x.totalTraffic < xs[0].totalTraffic
    requires SortedDesc(rest)
    requires forall y :: y in rest <==> y == x || y in xs[1..]
    requires x !in xs[1..] && Distinct(xs[1..]) ==> Distinct(rest)
    ensures SortedDesc([xs[0]] + rest)
    ensures forall y :: y in [xs[0]] + rest <==> y == x || y in xs
    ensures x !in xs && Distinct(xs) ==> Distinct([xs[0]] + rest)
  {
    assert xs == [xs[0]] + xs[1..];
    var r := [xs[0]] + rest;
    forall i | 0 <= i < |rest| ensures xs[0].totalTraffic >= rest[i].totalTraffic {
      assert rest[i] in rest;
      if rest[i] != x {
        var j :| 0 <= j < |xs[1..]| && xs[1..][j] == rest[i];
        assert xs[j + 1] == rest[i];
      }
    }
    forall i, j | 0 <= i < j < |r| ensures r[i].totalTraffic >= r[j].totalTraffic {
      if i > 0 {
        assert r[i] == rest[i - 1] && r[j] == rest[j - 1];
      } else {
        assert r[j] == rest[j - 1];
      }
    }
    if x !in xs && Distinct(xs) {
      assert Distinct(xs[1..]) by {
        forall i, j | 0 <= i < j < |xs[1..]| ensures xs[1..][i] != xs[1..][j] {
          assert xs[1..][i] == xs[i + 1] && xs[1..][j] == xs[j + 1];
        }
      }
      assert xs[0] !in xs[1..] by {
        forall j | 0 <= j < |xs[1..]| ensures xs[1..][j] != xs[0] {
          assert xs[1..][j] == xs[j + 1];
        }
      }
      forall i, j | 0 <= i < j < |r| ensures r[i] != r[j] {
        if i > 0 {
          assert r[i] == rest[i - 1] && r[j] == rest[j - 1];
        } else {
          assert r[j] == rest[j - 1];
          assert r[j] in rest;
        }
      }
    }
  }

  /** `order_by(total.desc())`: a rearrangement of `xs`, largest total first. */
  function SortDesc(xs: seq<Ranked>): (r: seq<Ranked>)
    ensures SortedDesc(r)
    ensures |r| == |xs|
    ensures forall y :: y in r <==> y in xs
    ensures Distinct(xs) ==> Distinct(r)
    ensures multiset(r) == multiset(xs)
  {
    if |xs| == 0 then []
    else
      var rest := SortDesc(xs[1..]);
      assert multiset(xs) == multiset{xs[0]} + multiset(xs[1..]) by {
        assert xs == [xs[0]] + xs[1..];
      }
      Insert(xs[0], rest)
  }

  /** `get_top_bandwidth_devices(limit)`: at most `limit` devices, each once,
      largest total first; every device of the window left out has no more
      traffic than any device ranked. */
  function TopBandwidthDevices(rows: seq<DeviceTraffic>, now: int, limit: nat): (r: seq<Ranked>)
    ensures |r| <= limit
    ensures SortedDesc(r)
    ensures forall i, j :: 0 <= i < j < |r| ==> r[i].deviceId != r[j].deviceId
    ensures var w := InWindow(rows, now - SecondsPerHour);
      forall i :: 0 <= i < |r| ==> HasRows(w, r[i].deviceId) && r[i].totalTraffic == TrafficOf(w, r[i].deviceId)
    ensures var w := InWindow(rows, now - SecondsPerHour);
      forall id :: HasRows(w, id) && (forall i :: 0 <= i < |r| ==> r[i].deviceId != id) ==>
        |r| == limit && forall i :: 0 <= i < |r| ==> r[i].totalTraffic >= TrafficOf(w, id)
  {
    var w := InWindow(rows, now - SecondsPerHour);
    var ranked := SortDesc(Totals(w, GroupIds(w)));
    var n := if limit < |ranked| then limit else |ranked|;
    CutIsTopK(w, limit);
    CutKeepsLargest(w, limit);
    ranked[..n]
  }

  /** The ranking promises of the cut, for the rows of one window: length,
      order, one entry per device, and each entry the device's total. */
  lemma CutIsTopK(w: seq<DeviceTraffic>, limit: nat)
    ensures var ranked := SortDesc(Totals(w, GroupIds(w)));
      var r := ranked[..if limit < |ranked| then limit else |ranked|];
      && |r| <= limit
      && SortedDesc(r)
      && (forall i, j :: 0 <= i < j < |r| ==> r[i].deviceId != r[j].deviceId)
      && (forall i :: 0 <= i < |r| ==> HasRows(w, r[i].deviceId) && r[i].totalTraffic == TrafficOf(w, r[i].deviceId))
  {
    var ids := GroupIds(w);
    var totals := Totals(w, ids);
    var ranked := SortDesc(totals);
    var n := if limit < |ranked| then limit else |ranked|;
    RankedEntries(w, ids, totals, ranked);
    assert forall i :: 0 <= i < n ==> ranked[..n][i] == ranked[i];
  }

  /** The cut keeps the largest totals: a window device left out means the
      limit was reached and it is no larger than any entry kept. */
  lemma CutKeepsLargest(w: seq<DeviceTraffic>, limit: nat)
    ensures var ranked := SortDesc(Totals(w, GroupIds(w)));
      var r := ranked[..if limit < |ranked| then limit else |ranked|];
      forall id :: HasRows(w, id) && (forall i :: 0 <= i < |r| ==> r[i].deviceId != id) ==>
        |r| == limit && forall i :: 0 <= i < |r| ==> r[i].totalTraffic >= TrafficOf(w, id)
  {
    var ids := GroupIds(w);
    var totals := Totals(w, ids);
    var ranked := SortDesc(totals);
    var n := if limit < |ranked| then limit else |ranked|;
    var r := ranked[..n];
    assert forall i :: 0 <= i < n ==> r[i] == ranked[i];
    forall id | HasRows(w, id) && (forall i :: 0 <= i < |r| ==> r[i].deviceId != id)
      ensures |r| == limit && forall i :: 0 <= i < |r| ==> r[i].totalTraffic >= TrafficOf(w, id)
    {
      OmittedNoLarger(w, ids, totals, ranked, n, id);
    }
  }

  /** A device of the window missing from the first `n` ranked entries sits
      further down, so the cut was at the limit and it is no larger than any
      entry above the cut. */
  lemma OmittedNoLarger(w: seq<DeviceTraffic>, ids: seq<string>, totals: seq<Ranked>, ranked: seq<Ranked>,
                        n: nat, id: string)
    requires NoDuplicates(ids) && (forall x :: x in ids <==> HasRows(w, x))
    requires totals == Totals(w, ids)
    requires SortedDesc(ranked) && forall y :: y in ranked <==> y in totals
    requires n <= |ranked|
    requires HasRows(w, id) && forall i :: 0 <= i < n ==> ranked[i].deviceId != id
    ensures n < |ranked|
    ensures forall i :: 0 <= i < n ==> ranked[i].totalTraffic >= TrafficOf(w, id)
  {
    var e := Ranked(id, TrafficOf(w, id));
    assert id in ids;
    var k :| 0 <= k < |ids| && ids[k] == id;
    assert totals[k] == e;
    assert e in ranked;
    var p :| 0 <= p < |ranked| && ranked[p] == e;
    assert p >= n;
  }

  /** Every ranked entry is some group's total, and no device is ranked twice. */
  lemma RankedEntries(w: seq<DeviceTraffic>, ids: seq<string>, totals: seq<Ranked>, ranked: seq<Ranked>)
    requires NoDuplicates(ids) && (forall id :: id in ids <==> HasRows(w, id))
    requires totals == Totals(w, ids)
    requires Distinct(ranked) && forall y :: y in ranked <==> y in totals
    ensures forall i :: 0 <= i < |ranked| ==>
      HasRows(w, ranked[i].deviceId) && ranked[i].totalTraffic == TrafficOf(w, ranked[i].deviceId)
    ensures forall i, j :: 0 <= i < j < |ranked| ==> ranked[i].deviceId != ranked[j].deviceId
  {
    forall i | 0 <= i < |ranked|
      ensures HasRows(w, ranked[i].deviceId) && ranked[i].totalTraffic == TrafficOf(w, ranked[i].deviceId)
    {
      assert ranked[i] in totals;
    }
    forall i, j | 0 <= i < j < |ranked|
      ensures ranked[i].deviceId != ranked[j].deviceId
    {
      assert ranked[i] in totals && ranked[j] in totals;
    }
  }
}

=== FILE: topology.dfy ===
/**
 The topology view: each device row projected onto a node of the network map,
 with a link status and an activity level derived from the seconds elapsed
 since the device was last seen.
 */
module Topology {
  import opened Common
  import opened Store

  /** Link status, freshest first; the response carries it as the lower-case name. */
  datatype LinkStatus = Active | Idle | Offline {
    /** 0 for the freshest label; larger is staler. */
    function Rank(): nat
    {
      match this
      case Active => 0
      case Idle => 1
      case Offline => 2
    }
  }

  /** Activity level, freshest first; the response carries it as the lower-case name. */
  datatype Activity = High | Medium | Low {
    function Rank(): nat
    {
      match this
      case High => 0
      case Medium => 1
      case Low => 2
    }
  }

  /** `map_device_type`: the five known stored types in lower case; anything
      else, a missing type included, is drawn as a network node. */
  function MapDeviceType(t: Option<string>): (r: string)
    ensures t == Some("LAPTOP") ==> r == "laptop"
    ensures t == Some("MOBILE") ==> r == "mobile"
    ensures t == Some("PRINTER") ==> r == "printer"
    ensures t == Some("IOT") ==> r == "iot"
    ensures t !in {Some("LAPTOP"), Some("MOBILE"), Some("PRINTER"), Some("IOT")} ==> r == "network"
    ensures r in {"laptop", "mobile", "printer", "iot", "network"}
  {
    match t
    case Some("LAPTOP") => "laptop"
    case Some("MOBILE") => "mobile"
    case Some("PRINTER") => "printer"
    case Some("IOT") => "iot"
    case Some("NETWORK") => "network"
    case _ => "network"
  }

  /** `calculate_status`: offline when never seen; otherwise by elapsed seconds,
      under a minute active, under five minutes idle, else offline. A last
      sighting in the future counts as active. */
  function CalculateStatus(lastSeen: Option<int>, now: int): (r: LinkStatus)
    ensures lastSeen.None? ==> r == Offline
    ensures lastSeen.Some? ==> (r == Active <==> now - lastSeen.value < 60)
    ensures lastSeen.Some? ==> (r == Idle <==> 60 <= now - lastSeen.value < 300)
    ensures lastSeen.Some? ==> (r == Offline <==> now - lastSeen.value >= 300)
  {
    match lastSeen
    case None => Offline
    case Some(t) =>
      var diff := now - t;
      if diff < 60 then Active else if diff < 300 then Idle else Offline
  }

  /** `calculate_activity`: low when never seen; otherwise under 30 seconds
      high, under two minutes medium, else low. */
  function CalculateActivity(lastSeen: Option<int>, now: int): (r: Activity)
    ensures lastSeen.None? ==> r == Low
    ensures lastSeen.Some? ==> (r == High <==> now - lastSeen.value < 30)
    ensures lastSeen.Some? ==> (r == Medium <==> 30 <= now - lastSeen.value < 120)
    ensures lastSeen.Some? ==> (r == Low <==> now - lastSeen.value >= 120)
  {
    match lastSeen
    case None => Low
    case Some(t) =>
      var diff := now - t;
      if diff < 30 then High else if diff < 120 then Medium else Low
  }

  /** The two labels never disagree: high activity implies an active link,
      and an offline link implies low activity. */
  lemma StatusActivityConsistent(lastSeen: Option<int>, now: int)
    ensures CalculateActivity(lastSeen, now) == High ==> CalculateStatus(lastSeen, now) == Active
    ensures CalculateStatus(lastSeen, now) == Offline ==> CalculateActivity(lastSeen, now) == Low
  {
  }

  /** More elapsed time never gives a fresher label: for two sightings seen
      from the same `now`, the older one is at least as stale on both scales. */
  lemma LabelsMonotone(older: int, newer: int, now: int)
    requires older <= newer
    ensures CalculateStatus(Some(older), now).Rank() >= CalculateStatus(Some(newer), now).Rank()
    ensures CalculateActivity(Some(older), now).Rank() >= CalculateActivity(Some(newer), now).Rank()
  {
  }

  /** The same sighting only goes stale as the clock advances. */
  lemma LabelsMonotoneInTime(lastSeen: Option<int>, now1: int, now2: int)
    requires now1 <= now2
    ensures CalculateStatus(lastSeen, now2).Rank() >= CalculateStatus(lastSeen, now1).Rank()
    ensures CalculateActivity(lastSeen, now2).Rank() >= CalculateActivity(lastSeen, now1).Rank()
  {
  }

  datatype Node = Node(
    id: string,
    name: string,
    ip: Option<string>,
    mac: string,
    vendor: Option<string>,
    nodeType: string,
    status: LinkStatus,
    firstSeen: Option<int>,
    lastSeen: Option<int>,
    activityLevel: Activity)

  /** The fixed core switch every device hangs off. */
  datatype Switch = Switch(id: string, name: string, status: string, x: int, y: int)

  const CoreSwitch: Switch := Switch("core-switch-1", "Core Switch", "healthy", 400, 300)

  datatype TopologyView = TopologyView(switch: Switch, devices: seq<Node>)

  function ToNode(d: Device, now: int): Node
  {
    Node(d.deviceId, OrElse(d.hostname, d.deviceId), d.ipAddress, d.deviceId, d.vendor,
         MapDeviceType(d.deviceType), CalculateStatus(d.lastSeen, now), d.firstSeen, d.lastSeen,
         CalculateActivity(d.lastSeen, now))
  }

  /** `build_topology_response`: one node per device row, in table order, named
      by its hostname or, when that is empty or missing, by its address. */
  function BuildTopologyResponse(ds: seq<Device>, now: int): (r: TopologyView)
    ensures r.switch == CoreSwitch
    ensures |r.devices| == |ds|
    ensures forall i :: 0 <= i < |ds| ==>
      var n := r.devices[i];
      && n.id == ds[i].deviceId && n.mac == ds[i].deviceId
      && (Truthy(ds[i].hostname) ==> n.name == ds[i].hostname.value)
      && (!Truthy(ds[i].hostname) ==> n.name == ds[i].deviceId)
      && n.ip == ds[i].ipAddress && n.vendor == ds[i].vendor
      && n.firstSeen == ds[i].firstSeen && n.lastSeen == ds[i].lastSeen
      && n.nodeType == MapDeviceType(ds[i].deviceType)
      && n.status == CalculateStatus(ds[i].lastSeen, now)
      && n.activityLevel == CalculateActivity(ds[i].lastSeen, now)
      && (n.activityLevel == High ==> n.status == Active)
      && (n.status == Offline ==> n.activityLevel == Low)
      && (ds[i].lastSeen.None? ==> n.status == Offline && n.activityLevel == Low)
  {
    TopologyView(CoreSwitch, seq(|ds|, i requires 0 <= i < |ds| => ToNode(ds[i], now)))
  }
}

=== FILE: websocket_manager.dfy ===
/**
 The broadcast hub: the list of live subscriber connections. Connections are
 opaque handles compared by identity; whether a send to a connection fails is
 given by the predicate `fails`, since delivery is outside the model.
 */
module WebSocketManager {
  import opened Common

  /** A live WebSocket, known by its identity only. */
  datatype Conn = Conn(handle: nat)

  /** `connect`: the new connection goes at the end; the others keep their places. */
  function Connect(hub: seq<Conn>, c: Conn): (r: seq<Conn>)
    ensures |r| == |hub| + 1
    ensures r[..|hub|] == hub && r[|hub|] == c
  {
    hub + [c]
  }

  /** Position of the first occurrence of `c`, as `list.remove` searches. */
  function FirstIndex(hub: seq<Conn>, c: Conn): (k: nat)
    requires c in hub
    ensures k < |hub| && hub[k] == c
    ensures forall j :: 0 <= j < k ==> hub[j] != c
  {
    if hub[0] == c then 0 else 1 + FirstIndex(hub[1..], c)
  }

  /** `disconnect`: remove the first occurrence; an absent connection raises. */
  function Disconnect(hub: seq<Conn>, c: Conn): (r: Result<seq<Conn>>)
    ensures r.Err? <==> c !in hub
    ensures r.Err? ==> r.error == NotConnected
    ensures r.Ok? ==> |r.value| == |hub| - 1
  {
    if c !in hub then Err(NotConnected)
    else
      var k := FirstIndex(hub, c);
      assert hub == hub[..k] + [c] + hub[k + 1..];
      Ok(hub[..k] + hub[k + 1..])
  }

  /** What `disconnect` removes: the first occurrence of the connection, and
      only that one; every other entry keeps its relative order. */
  lemma DisconnectRemovesFirst(hub: seq<Conn>, c: Conn)
    requires c in hub
    ensures var k := FirstIndex(hub, c);
      Disconnect(hub, c) == Ok(hub[..k] + hub[k + 1..])
    ensures multiset(Disconnect(hub, c).value) == multiset(hub) - multiset{c}
  {
    var k := FirstIndex(hub, c);
    var before, after := hub[..k], hub[k + 1..];
    assert hub == before + [c] + after;
    assert multiset(hub) == multiset(before) + multiset{c} + multiset(after);
    assert Disconnect(hub, c).value == before + after;
  }

  /** `disconnect` undoes a `connect` of a connection not yet listed. */
  lemma ConnectThenDisconnect(hub: seq<Conn>, c: Conn)
    requires c !in hub
    ensures Disconnect(Connect(hub, c), c) == Ok(hub)
  {
    DisconnectAfterPrefix(hub, [c]);
    assert hub + [c][1..] == hub;
  }

  /** The connections whose send fails, in list order. */
  function Failures(hub: seq<Conn>, fails: Conn -> bool): (r: seq<Conn>)
    ensures |r| <= |hub|
  {
    if |hub| == 0 then []
    else if fails(hub[0]) then [hub[0]] + Failures(hub[1..], fails)
    else Failures(hub[1..], fails)
  }

  /** The connections whose send succeeds, in list order. */
  function Survivors(hub: seq<Conn>, fails: Conn -> bool): (r: seq<Conn>)
    ensures |r| <= |hub|
  {
    if |hub| == 0 then []
    else if fails(hub[0]) then Survivors(hub[1..], fails)
    else [hub[0]] + Survivors(hub[1..], fails)
  }

  /** Every listed connection is either a survivor or a failure. */
  lemma {:induction false} SurvivorsAndFailuresPartition(hub: seq<Conn>, fails: Conn -> bool)
    ensures |Survivors(hub, fails)| + |Failures(hub, fails)| == |hub|
  {
    if |hub| > 0 {
      SurvivorsAndFailuresPartition(hub[1..], fails);
    }
  }

  /** A connection survives exactly when it was listed and its send succeeded. */
  lemma {:induction false} SurvivorsMembers(hub: seq<Conn>, fails: Conn -> bool, c: Conn)
    ensures c in Survivors(hub, fails) <==> c in hub && !fails(c)
  {
    if |hub| > 0 {
      SurvivorsMembers(hub[1..], fails, c);
      assert c in hub <==> c == hub[0] || c in hub[1..] by {
        assert hub == [hub[0]] + hub[1..];
      }
    }
  }

  /** `disconnect` applied to each of `cs` in turn; the first absent one raises. */
  function DisconnectEach(hub: seq<Conn>, cs: seq<Conn>): (r: Result<seq<Conn>>)
    ensures r.Ok? ==> |r.value| == |hub| - |cs|
    decreases |cs|
  {
    if |cs| == 0 then Ok(hub)
    else
      match Disconnect(hub, cs[0])
      case Err(e) => Err(e)
      case Ok(h) => DisconnectEach(h, cs[1..])
  }

  /** Result of one broadcast pass: the sends attempted, in order, the
      connections whose send failed, and the connection list afterwards. */
  datatype BroadcastOutcome = BroadcastOutcome(attempted: seq<Conn>, failed: seq<Conn>, hub: seq<Conn>)

  /** `broadcast`: try every connection listed at call time, collecting the
      failures without stopping, then disconnect each failed one. No removal
      raises, and what is left is exactly the connections that took the
      message, in their original order. */
  method Broadcast(hub: seq<Conn>, fails: Conn -> bool) returns (out: BroadcastOutcome)
    ensures out.attempted == hub
    ensures out.failed == Failures(hub, fails)
    ensures out.hub == Survivors(hub, fails)
    ensures |out.hub| == |hub| - |out.failed|
    ensures forall c :: c in out.hub <==> c in hub && !fails(c)
  {
    var attempted, failed := SendAll(hub, fails);
    RemovingFailuresLeavesSurvivors(hub, fails);
    var removed := DisconnectAll(hub, failed);
    out := BroadcastOutcome(attempted, failed, removed.value);
  }

  /** The send loop of `broadcast`: one attempt per listed connection, in
      order, with every failure collected and none stopping the loop. */
  method SendAll(hub: seq<Conn>, fails: Conn -> bool) returns (attempted: seq<Conn>, failed: seq<Conn>)
    ensures attempted == hub
    ensures failed == Failures(hub, fails)
  {
    attempted, failed := [], [];
    var i := 0;
    while i < |hub|
      invariant 0 <= i <= |hub|
      invariant attempted == hub[..i]
      invariant failed == Failures(hub[..i], fails)
    {
      FailuresAppend(hub[..i], hub[i], fails);
      assert hub[..i + 1] == hub[..i] + [hub[i]];
      attempted := attempted + [hub[i]];
      if fails(hub[i]) {
        failed := failed + [hub[i]];
      }
      i := i + 1;
    }
    assert hub[..|hub|] == hub;
  }

  /** The removal loop of `broadcast`: `disconnect` each listed connection in
      turn, stopping at the first one that raises, which is what removing them
      all at once does. */
  method DisconnectAll(hub: seq<Conn>, cs: seq<Conn>) returns (r: Result<seq<Conn>>)
    ensures r == DisconnectEach(hub, cs)
  {
    var remaining := hub;
    var j := 0;
    while j < |cs|
      invariant 0 <= j <= |cs|
      invariant DisconnectEach(hub, cs) == DisconnectEach(remaining, cs[j..])
    {
      var next := Disconnect(remaining, cs[j]);
      assert cs[j..][0] == cs[j] && cs[j..][1..] == cs[j + 1..];
      if next.Err? {
        r := Err(next.error);
        return;
      }
      remaining := next.value;
      j := j + 1;
    }
    assert cs[j..] == [];
    r := Ok(remaining);
  }

  /** The removal pass of a broadcast, taken as a whole: removing the failed
      connections in order never raises and leaves exactly the survivors, which
      are the listed connections whose send succeeded. */
  lemma RemovingFailuresLeavesSurvivors(hub: seq<Conn>, fails: Conn -> bool)
    ensures DisconnectEach(hub, Failures(hub, fails)) == Ok(Survivors(hub, fails))
    ensures |Survivors(hub, fails)| == |hub| - |Failures(hub, fails)|
    ensures forall c :: c in Survivors(hub, fails) <==> c in hub && !fails(c)
  {
    DisconnectFailures([], hub, fails);
    assert [] + hub == hub && [] + Survivors(hub, fails) == Survivors(hub, fails);
    SurvivorsAndFailuresPartition(hub, fails);
    forall c ensures c in Survivors(hub, fails) <==> c in hub && !fails(c) {
      SurvivorsMembers(hub, fails, c);
    }
  }

  lemma {:induction false} FailuresAppend(hub: seq<Conn>, c: Conn, fails: Conn -> bool)
    ensures Failures(hub + [c], fails) == Failures(hub, fails) + (if fails(c) then [c] else [])
  {
    if |hub| > 0 {
      assert (hub + [c])[1..] == hub[1..] + [c];
      FailuresAppend(hub[1..], c, fails);
    } else {
      assert hub + [c] == [c];
    }
  }

  /** Disconnecting, in order, the failed connections of `rest` from a list whose
      prefix `kept` holds only working connections removes exactly those, and
      keeps every other connection in place. */
  lemma {:induction false} DisconnectFailures(kept: seq<Conn>, rest: seq<Conn>, fails: Conn -> bool)
    requires forall i :: 0 <= i < |kept| ==> !fails(kept[i])
    ensures DisconnectEach(kept + rest, Failures(rest, fails)) == Ok(kept + Survivors(rest, fails))
    decreases |rest|
  {
    if |rest| == 0 {
      assert kept + rest == kept;
    } else if fails(rest[0]) {
      DisconnectFailures(kept, rest[1..], fails);
      FailedStep(kept, rest, fails);
    } else {
      var kept' := kept + [rest[0]];
      assert forall i :: 0 <= i < |kept'| ==> !fails(kept'[i]) by {
        forall i | 0 <= i < |kept'| ensures !fails(kept'[i]) {
          if i < |kept| { assert kept'[i] == kept[i]; }
        }
      }
      assert kept + rest == kept' + rest[1..];
      assert Failures(rest, fails) == Failures(rest[1..], fails);
      KeptStep(kept, rest, fails);
      DisconnectFailures(kept', rest[1..], fails);
    }
  }

  /** The failed head of `rest` is removed first, right after `kept`. */
  lemma FailedStep(kept: seq<Conn>, rest: seq<Conn>, fails: Conn -> bool)
    requires forall i :: 0 <= i < |kept| ==> !fails(kept[i])
    requires |rest| > 0 && fails(rest[0])
    requires DisconnectEach(kept + rest[1..], Failures(rest[1..], fails)) == Ok(kept + Survivors(rest[1..], fails))
    ensures DisconnectEach(kept + rest, Failures(rest, fails)) == Ok(kept + Survivors(rest, fails))
  {
    var tail := Failures(rest, fails);
    assert tail[0] == rest[0] && tail[1..] == Failures(rest[1..], fails) by {
      assert tail == [rest[0]] + Failures(rest[1..], fails);
    }
    assert rest[0] !in kept by {
      assert forall i :: 0 <= i < |kept| ==> !fails(kept[i]);
    }
    DisconnectAfterPrefix(kept, rest);
    DisconnectEachStep(kept + rest, tail);
  }

  /** A working head of `rest` moves over to the kept prefix without changing
      the expected survivors. */
  lemma KeptStep(kept: seq<Conn>, rest: seq<Conn>, fails: Conn -> bool)
    requires |rest| > 0 && !fails(rest[0])
    ensures (kept + [rest[0]]) + Survivors(rest[1..], fails) == kept + Survivors(rest, fails)
  {
    assert Survivors(rest, fails) == [rest[0]] + Survivors(rest[1..], fails);
  }

  /** One step of `DisconnectEach` when the first removal succeeds. */
  lemma DisconnectEachStep(hub: seq<Conn>, cs: seq<Conn>)
    requires |cs| > 0 && Disconnect(hub, cs[0]).Ok?
    ensures DisconnectEach(hub, cs) == DisconnectEach(Disconnect(hub, cs[0]).value, cs[1..])
  {
  }

  /** The first occurrence of a connection missing from `kept` lies after it. */
  lemma {:induction false} DisconnectAfterPrefix(kept: seq<Conn>, rest: seq<Conn>)
    requires |rest| > 0 && rest[0] !in kept
    ensures Disconnect(kept + rest, rest[0]) == Ok(kept + rest[1..])
  {
    var whole := kept + rest;
    assert whole[|kept|] == rest[0];
    var k := FirstIndex(whole, rest[0]);
    assert k == |kept| by {
      assert forall j :: 0 <= j < |kept| ==> whole[j] == kept[j];
    }
    DisconnectAt(whole, rest[0]);
    assert whole[..k] == kept;
    assert whole[k + 1..] == rest[1..];
  }

  /** `disconnect` of a listed connection cuts it out at its first position. */
  lemma DisconnectAt(hub: seq<Conn>, c: Conn)
    requires c in hub
    ensures Disconnect(hub, c) == Ok(hub[..FirstIndex(hub, c)] + hub[FirstIndex(hub, c) + 1..])
  {
  }
}
